=== FILE: README.md ===
# A verified model of the LexicalAnalizer lexer

`LexicalAnalizer.py` is the lexer of a small teaching language. A generator
reads the whole file, appends one `'\n'` and yields the symbols one at a time.
Each yield carries the symbol, an end flag that is true for `'@'`, and the line
and column counters. `LexicalAnalyzer.analysis` loads the first symbol. It then
runs a six-state machine until the current symbol is `'@'`:

- **H** skips blanks and dispatches on the next symbol.
- **COMM** skips a `#...#` comment.
- **ID** reads a word. The word becomes a `KWORD` or `TYPE` token, and any
  other word is also added to the identifier table.
- **NM** reads a number buffer and classifies it with `is_num`. There are five
  formats: `REAL`, `NUM2`, `NUM8`, `NUM10` and `NUM16`.
- **DLM** emits a delimiter, an arithmetic symbol or a relational operator. A
  relational operator needs one symbol of lookahead.
- **ERR** raises with the error symbol and the cursor position.

The model has two layers.

- **Scanner** (pure). A configuration holds the cursor index into the prepared
  text, the state, the token list, the identifier table and the pending error
  symbol. Each state procedure is one function. `Run` is the dispatch loop and
  `Lex` is the whole analysis of a content. Where `next()` would raise
  `StopIteration` (there is no `'@'`), the analysis ends with the halt
  `StreamExhausted`.
- **Analyzer** (imperative). It has the classes `Current`, `Error` and
  `LexicalAnalyzer` with the source's fields and one method per procedure. The
  `while` loops carry invariants. Every method is proved to compute exactly
  what its Scanner function says. `Analysis` is proved to end with
  `Final(lexemeTable, identifiersTable, halt) == Run(text, Initial(table))`.

The other modules hold the rest:

- **Tokens** holds the token kinds, the symbol classes and the keyword, type,
  delimiter and operator tables.
- **Stream** holds the generator and its position counters.
- **NumberFormats** holds `is_num`. Each regular expression is written twice:
  once as a scanner and once as a language, and the two are proved equal. The
  five formats are proved disjoint.
- **ScannerProperties** and **SampleRuns** prove what whole runs do.
- **SourceOrder** proves that the tokens of any analysis spell the text. Their
  lexemes are segments of the text, in increasing position and without
  overlap. Only blanks and closed `#...#` comments lie before and between them.
  When the analysis stops on `'@'` or raises, the rest of the text up to that
  point is accounted for too. After the last lexeme there is a gap, and then
  possibly an unclosed comment or the malformed number buffer that is raised
  or silently dropped at `'@'`.

Some of what the code does is easy to miss on a first reading. The model
follows the code in each case:

- After a `'\n'` the column counter restarts at 0, not 1. So columns are
  1-based only on the first line (`Stream.ColumnSinceTerminator`).
- A comment still open when `'@'` is reached does not raise. COMM moves to ERR
  on the `'@'`, but the loop stops on the end flag first
  (`ScannerProperties.UnterminatedCommentIsSilent`). A malformed number ended
  by `'@'` is silent for the same reason.
- A symbol that H has no branch for raises with the error symbol still empty,
  not with the symbol itself (`ScannerProperties.UnexpectedSymbolRaises`).
  A raised error symbol is either empty or a malformed number buffer
  (`ScannerProperties.LexRaisedSymbols`).
- Words that are not keywords or type names are emitted as `KWORD`. The
  `IDENT` and `NUM` kinds are never emitted (`Scanner.Lex`).

## Model

| member | source | states |
|---|---|---|
| Tokens.DlmTriggerIsTableMembership | LexicalAnalizer.py:111-112 | The H test of the one-symbol string against delimiters ∪ operators ∪ types ∪ arith holds exactly for the delimiter, arithmetic and `<`, `>`, `=` symbols; no type name is one symbol long |
| Tokens.DlmTestsAreTableMembership | LexicalAnalizer.py:140-158 | The DLM symbol tests are the table memberships: single-symbol tokens, delimiters, and the relational pairs of the operator table |
| Tokens.SymbolTestsAreStringMembership | LexicalAnalizer.py:105-109 | The blank, number-start and number-symbol tests are membership in the literal strings of the source |
| Tokens.IsKeyword | LexicalAnalizer.py:219-222 | A keyword starts with a letter or is a brace, and is never a type name. Nothing calls is_keyword; id_state_processing tests the table directly, as Scanner.ClassifyWord does |
| NumberFormats.IsNum | LexicalAnalizer.py:205-217 | A buffer is accepted only as REAL, NUM2, NUM8, NUM10 or NUM16 |
| NumberFormats.RunCoversAll | LexicalAnalizer.py:208-214 | A buffer is all digit run exactly when every symbol is in the regex character class |
| NumberFormats.ScanDigitsIsLanguage | LexicalAnalizer.py:206 | The `\d+` scanner accepts exactly the language of `\d+` |
| NumberFormats.ScanExponentIsLanguage | LexicalAnalizer.py:206 | The exponent scanner accepts exactly `[Ee][+-]?\d+` |
| NumberFormats.ScanRealExpIsLanguage | LexicalAnalizer.py:206 | The first REAL alternative scanner accepts exactly `^\d+[Ee][+-]?\d+$` |
| NumberFormats.ScanRealFracIsLanguage | LexicalAnalizer.py:206 | The second REAL alternative scanner accepts exactly `^\d*\.\d+([Ee][+-]?\d+)?$` |
| NumberFormats.BinLiteralIsLanguage | LexicalAnalizer.py:208 | The NUM2 scanner accepts exactly `^[01]+[Bb]$` |
| NumberFormats.OctLiteralIsLanguage | LexicalAnalizer.py:210 | The NUM8 scanner accepts exactly `^[01234567]+[Oo]$` |
| NumberFormats.ScanDecIsLanguage | LexicalAnalizer.py:212 | The NUM10 scanner accepts exactly `^\d+[dD]?$` |
| NumberFormats.HexLiteralIsLanguage | LexicalAnalizer.py:214 | The NUM16 scanner accepts exactly `^\d[0-9ABCDEFabcdef]*[Hh]$` |
| NumberFormats.LiteralsAreLanguages | LexicalAnalizer.py:208-214 | The three suffixed formats scan exactly their languages |
| NumberFormats.RealShape | LexicalAnalizer.py:206 | A REAL buffer ends in a digit and its leading digit run stops short of the end |
| NumberFormats.FormatsDisjoint | LexicalAnalizer.py:206-214 | No buffer matches two of the five formats, so the order of the tests never decides |
| NumberFormats.IsNumClassifies | LexicalAnalizer.py:205-217 | is_num returns kind k exactly when the buffer is in the language of format k (both directions) |
| NumberFormats.IsNumRejects | LexicalAnalizer.py:205-217 | is_num returns (False, False) exactly when the buffer is in none of the five languages |
| NumberFormats.AcceptedStartsAsNumber | LexicalAnalizer.py:109 | Every accepted buffer starts with a digit or '.', the symbols that enter NM |
| NumberFormats.FractionExample | LexicalAnalizer.py:206 | "3.14" is REAL |
| NumberFormats.PointFirstExample | LexicalAnalizer.py:206 | ".5" is REAL |
| NumberFormats.ExponentExample | LexicalAnalizer.py:206 | "1e5" is REAL |
| NumberFormats.BinaryExample | LexicalAnalizer.py:208 | "1010b" is NUM2 |
| NumberFormats.OctalExample | LexicalAnalizer.py:210 | "17o" is NUM8 |
| NumberFormats.DecimalExamples | LexicalAnalizer.py:212 | "10" and "10d" are NUM10 |
| NumberFormats.HexExample | LexicalAnalizer.py:214 | "1Ah" is NUM16 |
| NumberFormats.SumIsRejected | LexicalAnalizer.py:191-201 | "1+2", one buffer because '+' is a number symbol, matches no format |
| NumberFormats.BadOctalIsRejected | LexicalAnalizer.py:210 | "18o" matches no format |
| Stream.Prepare | LexicalAnalizer.py:58-59 | The yielded symbols are the content followed by exactly one '\n' |
| Stream.LineAt | LexicalAnalizer.py:60-67 | The line counter is at least 1 and at most one more than the symbols read |
| Stream.ColAt | LexicalAnalizer.py:60-67 | The column counter lies between 0 and n + 1, and is 0 exactly right after a '\n' |
| Stream.ItemAt | LexicalAnalizer.py:62 | The yielded tuple carries the symbol, an end flag set exactly on '@', and the line as 1 plus the '\n' count before it |
| Stream.LineCountsTerminators | LexicalAnalizer.py:60-67 | The line of symbol n is 1 plus the number of '\n' before it |
| Stream.ColumnOnFirstLine | LexicalAnalizer.py:60-67 | On the first line the column of symbol n is n + 1 |
| Stream.ColumnSinceTerminator | LexicalAnalizer.py:63-67 | After a '\n' at k, the column of symbol n is n - k - 1 (restarting at 0) |
| Stream.PositionsArePrefixLocal | LexicalAnalizer.py:60-67 | The counters depend only on the symbols already yielded |
| Stream.CharStream.constructor | LexicalAnalizer.py:57-60 | Exactly one '\n' is appended to the content; counters start at (1, 1) |
| Stream.CharStream.Next | LexicalAnalizer.py:61-67 | Yields symbol n with end flag ⇔ '@' and the counters of position n, then advances; None past the end |
| Scanner.SkipFrom | LexicalAnalizer.py:105-106 | A skip stops on '@' or on the first symbol outside the class |
| Scanner.SkipFromStops | LexicalAnalizer.py:105-106 | Every symbol skipped is in the class and not '@'; running out means all the rest are |
| Scanner.Advance | LexicalAnalizer.py:106 | `next()` moves to the following symbol, and raises StopIteration (None) exactly on the last one |
| Scanner.AdvanceUnlessEof | LexicalAnalizer.py:115-116 | `if not eof_state: next()` keeps the cursor on '@', otherwise moves it one on; it runs out only on the last symbol |
| Scanner.EmitThenAdvance | LexicalAnalizer.py:114-116 | `add_token` then the guarded advance: exactly the token is appended, the table is kept, the state is H and the cursor moves one on unless on '@' |
| Scanner.BufferFrom | LexicalAnalizer.py:168-174 | A buffer starts with the current symbol, and its length is the number of symbols consumed (one more at '@') |
| Scanner.BufferFromStops | LexicalAnalizer.py:168-174 | A buffer never extends past '@'; running out means there is no '@' ahead |
| Scanner.HStep | LexicalAnalizer.py:104-126 | H appends at most one token, and that token is the KWORD token of '{' or '}'; it keeps the identifier table, enters a state on a symbol that state accepts, and consumes a symbol whenever it stays in H |
| Scanner.HDispatch | LexicalAnalizer.py:107-126 | The dispatch after the blanks: at most one token, only a KWORD brace; it keeps the identifier table, enters a state on a symbol that state accepts, consumes a symbol when it stays in H, and entering ERR emits nothing |
| Scanner.CommStep | LexicalAnalizer.py:128-137 | A comment emits nothing; it ends back in H with the cursor just past a '#', or in ERR on '@' |
| Scanner.ClassifyWord | LexicalAnalizer.py:176-183 | One token whose lexeme is the word, TYPE exactly for a type name; the word joins the identifier table exactly when it is neither a keyword nor a type name; nothing else changes |
| Scanner.IdStep | LexicalAnalizer.py:167-184 | ID appends exactly one emittable token, returns to H and moves past the current symbol; the word itself is the maximal run given by ScannerProperties.WordBuffer |
| Scanner.ClassifyNumber | LexicalAnalizer.py:195-203 | is_num accepts the buffer exactly when the state returns to H; then one token of the kind is_num gives is appended and the error symbol is kept; otherwise the state is ERR, no token is appended and the error symbol is the buffer; the cursor and the identifier table are unchanged |
| Scanner.NmStep | LexicalAnalizer.py:186-203 | NM appends at most one token, keeps the identifier table, ends in H or ERR and moves past the current symbol; the buffer itself is the maximal run given by ScannerProperties.NumberBuffer |
| Scanner.OperatorStep | LexicalAnalizer.py:149-160 | The relational branch appends exactly one OPER token and returns to H |
| Scanner.DlmStep | LexicalAnalizer.py:139-161 | DLM appends exactly one token, returns to H and consumes at least one symbol |
| Scanner.SingleSymbolStep | LexicalAnalizer.py:140-148 | The symbol alone is appended as a token, DELIM for a delimiter and ARITH otherwise; the table is kept |
| Scanner.SymbolKind | LexicalAnalizer.py:140-146 | The kind is DELIM exactly for delimiters, and never TYPE for a single symbol |
| Scanner.Step | LexicalAnalizer.py:90-102 | One round appends at most one emittable token, keeps the entry condition of the next state, and decreases the termination measure |
| Scanner.StepStopsBySentinel | LexicalAnalizer.py:90-102 | No round moves past '@' or exhausts the stream while '@' is ahead |
| Scanner.Run | LexicalAnalizer.py:87-102 | The loop only appends tokens and only adds identifiers |
| Scanner.RunSteps | LexicalAnalizer.py:90-102 | A round that moves on leaves the rest of the run to the next configuration; exhaustion ends it |
| Scanner.RunEnds | LexicalAnalizer.py:90-98 | The run stops at '@' in any state; in ERR it raises with the error symbol and the current position |
| Scanner.GrowsByStep | LexicalAnalizer.py:224-225 | Appending at most one emittable token, then growing, is growing |
| Scanner.RunGrows | LexicalAnalizer.py:224-225 | Every token a run appends has a non-empty lexeme and is never IDENT or NUM |
| Scanner.RunStopsAtSentinel | LexicalAnalizer.py:87-102 | A run halts at '@' only if there is one, and never exhausts the stream while '@' is ahead |
| Scanner.Lex | LexicalAnalizer.py:87-102 | The whole analysis: identifiers only grow, all tokens are emittable, content with '@' never exhausts, content without '@' never halts at '@' |
| SourceOrder.StartConfiguration | LexicalAnalizer.py:87-89 | Scanner.Initial, the configuration after the first `next()`: on symbol 0 in H with nothing emitted, the given table, an empty error symbol, and nothing spelled yet |
| Scanner.PreparedSentinel | LexicalAnalizer.py:58-59 | The prepared text has '@' exactly where the content has |
| Analyzer.Current.constructor | LexicalAnalizer.py:35-41 | The cursor starts with the given state, end flag false and position (0, 0) |
| Analyzer.Current.ReAssign | LexicalAnalizer.py:43-47 | re_assign loads symbol, flag, line and column and leaves the state alone |
| Analyzer.Error.constructor | LexicalAnalizer.py:50-54 | The error record starts with the file name and an empty symbol |
| Analyzer.LexicalAnalyzer.constructor | LexicalAnalizer.py:70-85 | Nothing read, nothing emitted, state H, the given identifier table |
| Analyzer.LexicalAnalyzer.ReAssignNext | LexicalAnalizer.py:89 | `re_assign(*next(fgetc))`: loads the next symbol, or reports StopIteration without changing the cursor |
| Analyzer.LexicalAnalyzer.AddToken | LexicalAnalizer.py:224-225 | Appends exactly the token, nothing else changes |
| Analyzer.LexicalAnalyzer.NextUnlessEof | LexicalAnalizer.py:115-116 | Advances unless the flag is set, as Scanner.AdvanceUnlessEof |
| Analyzer.LexicalAnalyzer.SkipWhile | LexicalAnalizer.py:105-106 | The skip loop ends where Scanner.SkipFrom says |
| Analyzer.LexicalAnalyzer.HStateProcessing | LexicalAnalizer.py:104-126 | h_state_processing moves the analyzer exactly as Scanner.HStep |
| Analyzer.LexicalAnalyzer.HDispatchProcessing | LexicalAnalizer.py:107-126 | The if-chain after the skip moves the analyzer exactly as Scanner.HDispatch |
| Analyzer.LexicalAnalyzer.CommStateProcessing | LexicalAnalizer.py:128-137 | comm_state_processing moves the analyzer exactly as Scanner.CommStep |
| Analyzer.LexicalAnalyzer.DlmStateProcessing | LexicalAnalizer.py:139-161 | dlm_state_processing moves the analyzer exactly as Scanner.DlmStep |
| Analyzer.LexicalAnalyzer.SingleSymbolProcessing | LexicalAnalizer.py:140-148 | The single-symbol branch moves the analyzer exactly as Scanner.SingleSymbolStep |
| Analyzer.LexicalAnalyzer.OperatorProcessing | LexicalAnalizer.py:149-161 | The relational branch moves the analyzer exactly as Scanner.OperatorStep |
| Analyzer.LexicalAnalyzer.PairOrSingle | LexicalAnalizer.py:152-158 | After the lookahead: the pair token and one more advance, or the single token with the lookahead symbol kept |
| Analyzer.LexicalAnalyzer.ErrStateProcessing | LexicalAnalizer.py:163-165 | Raises with the error symbol and the cursor's line and column |
| Analyzer.LexicalAnalyzer.AppendWhile | LexicalAnalizer.py:171-174 | The buffer loop collects exactly the symbols Scanner.SkipFrom passes over |
| Analyzer.LexicalAnalyzer.ReadBuffer | LexicalAnalizer.py:168-175 | The buffer and the stopping symbol are those of Scanner.BufferFrom |
| Analyzer.LexicalAnalyzer.IdStateProcessing | LexicalAnalizer.py:167-184 | id_state_processing moves the analyzer exactly as Scanner.IdStep |
| Analyzer.LexicalAnalyzer.EmitWord | LexicalAnalizer.py:176-184 | The keyword / type / identifier classification as Scanner.ClassifyWord |
| Analyzer.LexicalAnalyzer.NmStateProcessing | LexicalAnalizer.py:186-203 | nm_state_processing moves the analyzer exactly as Scanner.NmStep |
| Analyzer.LexicalAnalyzer.EmitNumber | LexicalAnalizer.py:196-203 | The token or the error symbol as Scanner.ClassifyNumber |
| Analyzer.LexicalAnalyzer.Dispatch | LexicalAnalizer.py:91-102 | The if-chain of the loop body is one Scanner.Step |
| Analyzer.LexicalAnalyzer.Round | LexicalAnalizer.py:90-102 | One loop iteration leaves the rest of the run unchanged: the run from before equals the run from after, or exhaustion |
| Analyzer.LexicalAnalyzer.Analysis | LexicalAnalizer.py:87-102 | analysis ends with the token list, identifier table and halt of Scanner.Run from the initial configuration |
| ScannerProperties.SkipFromReaches | LexicalAnalizer.py:105-106 | A skip stops at the first symbol outside the class or '@', and exhausts only when there is none |
| ScannerProperties.BufferReaches | LexicalAnalizer.py:168-174 | A buffer is the current symbol plus the maximal run of the class after it |
| ScannerProperties.SkipFromLocal | LexicalAnalizer.py:105-106 | A skip never reads past '@' |
| ScannerProperties.AdvanceLocal | LexicalAnalizer.py:115-116 | `if not eof_state: next()` never reads past '@' |
| ScannerProperties.BufferFromLocal | LexicalAnalizer.py:168-174 | A buffer never reads past '@' |
| ScannerProperties.StepLocal | LexicalAnalizer.py:90-102 | One round gives the same result on two texts that agree up to '@' |
| ScannerProperties.RunLocal | LexicalAnalizer.py:87-102 | A run gives the same result on two texts that agree up to '@' |
| ScannerProperties.NothingAfterSentinelIsScanned | LexicalAnalizer.py:90 | Whatever follows the first '@' of a content never changes the analysis |
| ScannerProperties.SentinelFirstYieldsNothing | LexicalAnalizer.py:89-90 | A content starting with '@' yields no token and stops at '@' |
| ScannerProperties.BlanksOnlyExhaust | LexicalAnalizer.py:105-106 | A content of blanks only, with no '@', yields nothing and exhausts the stream |
| ScannerProperties.BlanksThenSentinel | LexicalAnalizer.py:90-106 | Blanks and then '@' yield no token and leave the identifier table as it was, whatever follows |
| ScannerProperties.BufferIsSegment | LexicalAnalizer.py:168-174 | A buffer started on a symbol other than '@' is the text segment up to where it stops, and every symbol after the first is in the class |
| ScannerProperties.UnexpectedSymbolRaises | LexicalAnalizer.py:125-126 | A symbol H has no branch for, after blanks, raises at that symbol's position with the error symbol still empty |
| ScannerProperties.StartDispatches | LexicalAnalizer.py:104-112 | After the blanks, the run continues from the state the first other symbol selects |
| ScannerProperties.BraceIsKeyword | LexicalAnalizer.py:113-120 | A brace is a KWORD token on its own and the scan advances one symbol |
| ScannerProperties.ReturnToStartConsumes | LexicalAnalizer.py:90-102 | Every round that ends in H has consumed at least one symbol |
| ScannerProperties.CommentSkipped | LexicalAnalizer.py:128-134 | A comment is skipped up to the closing '#' and the scan resumes after it in H |
| ScannerProperties.UnterminatedCommentIsSilent | LexicalAnalizer.py:128-137 | A comment reaching '@' ends the analysis with no error and no token |
| ScannerProperties.WordBuffer | LexicalAnalizer.py:167-174 | A word is the letter and the maximal run of letters and digits after it |
| ScannerProperties.WordToken | LexicalAnalizer.py:167-184 | A word is one token and the run continues in H on the symbol that ended it |
| ScannerProperties.WordClassification | LexicalAnalizer.py:176-183 | Keyword ⇒ KWORD, type ⇒ TYPE, with the table unchanged; any other word ⇒ KWORD and added to the table; a repeated word adds nothing |
| ScannerProperties.NumberBuffer | LexicalAnalizer.py:186-193 | A number buffer is its first symbol and the maximal run of number symbols after it |
| ScannerProperties.NumberToken | LexicalAnalizer.py:195-199 | A buffer in format k is one token of kind k and the run continues in H |
| ScannerProperties.MalformedNumber | LexicalAnalizer.py:200-203 | A buffer in no format becomes the error symbol: raised at the next symbol, or silent when that symbol is '@' |
| ScannerProperties.SingleSymbolTokens | LexicalAnalizer.py:140-148 | A delimiter or arithmetic symbol is one token, DELIM ⇔ delimiter table, ARITH ⇔ arith table, then one advance |
| ScannerProperties.RelationalLookahead | LexicalAnalizer.py:149-160 | A pair from the operator table is one OPER token followed by an advance; otherwise the single symbol is the token and the lookahead stays current |
| ScannerProperties.StepKeepsErrSymbol | LexicalAnalizer.py:136-201 | A round keeps the error symbol empty outside ERR; in ERR away from '@' it is empty or a malformed number buffer (starts with a digit or '.', only number symbols, rejected by is_num) |
| ScannerProperties.RaisedSymbols | LexicalAnalizer.py:163-165 | A run raises only with the empty symbol or a malformed number buffer |
| ScannerProperties.LexRaisedSymbols | LexicalAnalizer.py:87-165 | The analysis of any content raises only with the empty symbol (an unexpected symbol) or a malformed number buffer, never with '@' or a word |
| SourceOrder.GapOverBlanks | LexicalAnalizer.py:105-106 | The blanks H skips extend the gap before the next lexeme |
| SourceOrder.CommentOverBody | LexicalAnalizer.py:129-130 | The symbols COMM skips extend the open comment |
| SourceOrder.SpellsAppend | LexicalAnalizer.py:224-225 | Appending a token whose lexeme follows a gap extends the spelling, which now ends after that lexeme |
| SourceOrder.EmitSpells | LexicalAnalizer.py:114-116 | A one-symbol token emitted on the cursor extends the spelling |
| SourceOrder.DispatchSpells | LexicalAnalizer.py:107-126 | The dispatch after the blanks keeps the text spelled: a brace token sits at the cursor, a '#' opens a comment |
| SourceOrder.HSpells | LexicalAnalizer.py:104-126 | A round of H keeps the text spelled |
| SourceOrder.CommSpells | LexicalAnalizer.py:128-137 | A round of COMM keeps the text spelled: a closed comment joins the gap |
| SourceOrder.IdSpells | LexicalAnalizer.py:167-184 | A word token's lexeme is the text from the cursor to where the word stops |
| SourceOrder.NmSpells | LexicalAnalizer.py:186-203 | A number token's lexeme is the text from the cursor to where the buffer stops |
| SourceOrder.DlmSpells | LexicalAnalizer.py:139-161 | A delimiter, arithmetic or relational token's lexeme is the one or two symbols at the cursor |
| SourceOrder.StepSpells | LexicalAnalizer.py:90-102 | Every round keeps the configuration's reading of the text, or ends with tokens that spell it |
| SourceOrder.RunSpells | LexicalAnalizer.py:87-102 | The tokens a run ends with spell the text: gap, lexeme, gap, lexeme, ... |
| SourceOrder.SpellsInOrder | LexicalAnalizer.py:224-225 | In a spelling every lexeme is the text segment at its own position, positions increase and lexemes do not overlap |
| SourceOrder.LexSpellsText | LexicalAnalizer.py:87-225 | The analysis of any content emits lexemes that are segments of the text in source order, strictly increasing and non-overlapping, with only blanks and closed comments before and between them |
| SourceOrder.HaltCfg | LexicalAnalizer.py:90-102 | The configuration the loop stops in: on '@' or in ERR, with no '@' passed before it and the same final result; it exists exactly when the stream does not run out |
| SourceOrder.RunAccounts | LexicalAnalizer.py:90-102 | The configuration a run stops in keeps the reading of the text, including what ERR leaves pending |
| SourceOrder.ScannedTail | LexicalAnalizer.py:128-203 | At the stop, the text after the last lexeme is a gap, followed by an open comment or a malformed number buffer, or by nothing |
| SourceOrder.RunAccountsForText | LexicalAnalizer.py:87-102 | A run that stops on '@' or raises spells the text and leaves only that tail up to the first '@', or up to the position it raises at |
| SourceOrder.LexAccountsForText | LexicalAnalizer.py:87-203 | Every symbol before the stop of an analysis that reaches '@' or raises is a blank, part of a comment, part of a lexeme, or part of the raised or dropped number buffer |
| SampleRuns.UnexpectedSymbolExample | LexicalAnalizer.py:125-126 | "?" raises with '' at line 1, column 1 |
| SampleRuns.MalformedNumberExample | LexicalAnalizer.py:186-203 | "1+2 " raises with "1+2" at line 1, column 4 |
| SampleRuns.MalformedNumberAtSentinelExample | LexicalAnalizer.py:186-203 | "1+2@" ends with no token and no error |
| SampleRuns.RepeatedIdentifierExample | LexicalAnalizer.py:180-183 | "x1 x1@" gives two KWORD tokens and the identifier table {"x1"} |
| SampleRuns.OperatorPushbackExample | LexicalAnalizer.py:149-158 | "a<b@" gives KWORD a, OPER <, KWORD b |
| SampleRuns.CommentThenNumberExample | LexicalAnalizer.py:121-134 | "#c#10@" gives the single token NUM10 10 |
| SampleRuns.UnterminatedCommentExample | LexicalAnalizer.py:128-137 | "#open@" ends with no token and no error |

## Left out

- main.py, the driver that builds the analyzer and prints the tokens, is not
  part of this model.
- Opening and reading the file: the content is a parameter of the constructor,
  and the file name is only kept in the error record.
- `StopIteration` from `next()` when there is no `'@'` becomes the explicit halt
  `StreamExhausted`. What the caller does with the exception is not modelled.
- The exception message text, `Token.__repr__`, and the numeric values of the
  keyword dictionary, which are never read, are not modelled.
- `str.isalpha`, `str.isdigit` and `\d` are restricted to ASCII. A non-ASCII
  letter is treated as a symbol H has no branch for. Number buffers only hold
  ASCII number symbols, so `\d` loses nothing there.
- Regex `$` also matches before a final `'\n'`. No buffer holds `'\n'`, so this
  never matters.
- The cursor's initial empty symbol is written `'\0'`. It is never read before
  the first `re_assign`.
- `Error.line` and `Error.pos_in_line` are never written, so they are left out.
- The identifier table is a field of the analyzer. Aliasing with the caller's
  Python set object is not modelled.
- SourceOrder.LexAccountsForText: covers only the analyses that stop on `'@'`
  or raise. When the stream runs out first, a word or number buffer cut off
  by `StopIteration` is dropped without a token. For those analyses only
  `SourceOrder.LexSpellsText` applies: it covers the text up to the last lexeme.

=== FILE: analyzer.dfy ===
/**
 * The analyzer as the source has it: a cursor object updated in place, an
 * error record, a token list and an identifier table, and one procedure per
 * state that pulls symbols from the stream with while loops.  Each procedure
 * is proved to do what the matching function of the Scanner module says, and
 * Analysis is proved to end as Run says.
 */
module Analyzer {
  import opened Tokens
  import opened NumberFormats
  import opened Stream
  import opened Scanner

  /** The current symbol, its end flag and position, and the scanner state. */
  class Current {
    var symbol: char
    var eofState: bool
    var lineNumber: int
    var posNumber: int
    var state: State

    /** No symbol is loaded yet ('\0' stands for the empty string). */
    constructor (state: State)
      ensures this.state == state && !eofState && lineNumber == 0 && posNumber == 0
    {
      symbol := '\0';
      eofState := false;
      lineNumber, posNumber := 0, 0;
      this.state := state;
    }

    /** re_assign: load one tuple of the stream; the state is left alone. */
    method ReAssign(item: Item)
      modifies this
      ensures symbol == item.symbol && eofState == item.eof
      ensures lineNumber == item.line && posNumber == item.pos && state == old(state)
    {
      symbol, eofState, lineNumber, posNumber := item.symbol, item.eof, item.line, item.pos;
    }
  }

  /** The error record: the file name and the offending symbol (empty until a procedure sets it). */
  class Error {
    const filename: string
    var symbol: string

    constructor (filename: string)
      ensures this.filename == filename && symbol == ""
    {
      this.filename := filename;
      symbol := "";
    }
  }

  class LexicalAnalyzer {
    var identifiersTable: set<string>
    const fgetc: CharStream
    const current: Current
    const error: Error
    var lexemeTable: seq<Token>

    /** The state right after construction: nothing read, nothing emitted, no error symbol. */
    ghost predicate Fresh()
      reads this, fgetc, current, error
    {
      fgetc.Valid() && fgetc.next == 0 && |fgetc.text| > 0 && lexemeTable == [] && error.symbol == ""
    }

    /** The cursor holds the symbol last yielded by the stream, with its flag and position. */
    ghost predicate Loaded()
      reads fgetc, current`symbol, current`eofState, current`lineNumber, current`posNumber
    {
      fgetc.Valid() && 0 < fgetc.next &&
      current.symbol == fgetc.text[fgetc.next - 1] &&
      current.eofState == (current.symbol == Sentinel) &&
      current.lineNumber == LineAt(fgetc.text, fgetc.next - 1) &&
      current.posNumber == ColAt(fgetc.text, fgetc.next - 1)
    }

    /** The analyzer's state as a configuration of the scanning machine. */
    ghost function Snapshot(): Cfg
      reads this`lexemeTable, this`identifiersTable, fgetc`next, current`state, error`symbol
      requires 0 < fgetc.next
    {
      Cfg(fgetc.next - 1, current.state, lexemeTable, identifiersTable, error.symbol)
    }

    /** The file content is a parameter; opening and reading the file is not modelled. */
    constructor (filename: string, content: string, identifiersTable: set<string>)
      ensures Fresh() && fgetc.text == Prepare(content)
      ensures this.identifiersTable == identifiersTable && current.state == H
      ensures error.filename == filename
      ensures fresh(fgetc) && fresh(current) && fresh(error)
    {
      this.identifiersTable := identifiersTable;
      fgetc := new CharStream(content);
      current := new Current(H);
      error := new Error(filename);
      lexemeTable := [];
    }

    /** re_assign(*next(fgetc)); exhausted stands for StopIteration. */
    method ReAssignNext() returns (exhausted: bool)
      requires fgetc.Valid()
      modifies fgetc, current
      ensures fgetc.Valid() && current.state == old(current.state)
      ensures exhausted <==> old(fgetc.next) == |fgetc.text|
      ensures exhausted ==> fgetc.next == old(fgetc.next) && unchanged(current)
      ensures !exhausted ==> fgetc.next == old(fgetc.next) + 1 && Loaded()
    {
      var item := fgetc.Next();
      match item
      case None =>
        exhausted := true;
      case Some(it) =>
        current.ReAssign(it);
        exhausted := false;
    }

    /** add_token */
    method AddToken(name: TokenKind, value: string)
      modifies this
      ensures lexemeTable == old(lexemeTable) + [Token(name, value)]
      ensures identifiersTable == old(identifiersTable)
    {
      lexemeTable := lexemeTable + [Token(name, value)];
    }

    /** `if not eof_state: next()` */
    method NextUnlessEof() returns (exhausted: bool)
      requires Loaded()
      modifies fgetc, current
      ensures Loaded() && current.state == old(current.state)
      ensures AdvanceUnlessEof(fgetc.text, old(fgetc.next) - 1) ==
        if exhausted then None else Some(fgetc.next - 1)
    {
      exhausted := false;
      if !current.eofState {
        exhausted := ReAssignNext();
      }
    }

    /** The skipping loops of h_state_processing and comm_state_processing: `while not eof_state and <symbol in cls>: next()`. */
    method SkipWhile(cls: CharClass) returns (exhausted: bool)
      requires Loaded()
      modifies fgetc, current
      ensures Loaded() && current.state == old(current.state)
      ensures SkipFrom(fgetc.text, old(fgetc.next) - 1, cls) ==
        if exhausted then None else Some(fgetc.next - 1)
    {
      ghost var t, j := fgetc.text, fgetc.next - 1;
      exhausted := false;
      while !current.eofState && InClass(current.symbol, cls)
        invariant Loaded() && current.state == old(current.state) && j <= fgetc.next - 1
        invariant SkipFrom(t, fgetc.next - 1, cls) == SkipFrom(t, j, cls)
        decreases |t| - fgetc.next
      {
        exhausted := ReAssignNext();
        if exhausted {
          return;
        }
      }
    }

    /** h_state_processing: skip the blanks, then dispatch on the symbol reached. */
    method HStateProcessing() returns (exhausted: bool)
      requires Loaded() && current.state == H
      modifies this, fgetc, current
      ensures Loaded()
      ensures HStep(fgetc.text, old(Snapshot())) ==
        if exhausted then Exhausted(lexemeTable, identifiersTable) else Moved(Snapshot())
    {
      ghost var t, c := fgetc.text, Snapshot();
      exhausted := SkipWhile(Blank);
      if exhausted {
        return;
      }
      exhausted := HDispatchProcessing(t, c);
    }

    /**
     * The dispatch of h_state_processing on the first symbol that is not
     * blank.  The ghost parameters name the round that skipped the blanks.
     */
    method HDispatchProcessing(ghost t: string, ghost c: Cfg) returns (exhausted: bool)
      requires Loaded() && current.state == H && t == fgetc.text && c.i < |t|
      requires SkipFrom(t, c.i, Blank) == Some(fgetc.next - 1)
      requires Snapshot() == c.(i := fgetc.next - 1)
      modifies this, fgetc, current
      ensures Loaded()
      ensures HDispatch(t, old(Snapshot())) ==
        if exhausted then Exhausted(lexemeTable, identifiersTable) else Moved(Snapshot())
      ensures HStep(t, c) == if exhausted then Exhausted(lexemeTable, identifiersTable) else Moved(Snapshot())
    {
      exhausted := false;
      if IsAlpha(current.symbol) {
        current.state := Id;
      } else if IsNumStart(current.symbol) {
        current.state := Nm;
      } else if IsDlmTrigger(current.symbol) {
        current.state := Dlm;
      } else if current.symbol == '{' {
        AddToken(Kword, "{");
        exhausted := NextUnlessEof();
      } else if current.symbol == '}' {
        AddToken(Kword, "}");
        exhausted := NextUnlessEof();
      } else if current.symbol == '#' {
        current.state := Comm;
        exhausted := NextUnlessEof();
      } else {
        current.state := Err;
      }
    }

    /** comm_state_processing */
    method CommStateProcessing() returns (exhausted: bool)
      requires Loaded() && current.state == Comm
      modifies fgetc, current, error
      ensures Loaded()
      ensures CommStep(fgetc.text, old(Snapshot())) ==
        if exhausted then Exhausted(lexemeTable, identifiersTable) else Moved(Snapshot())
    {
      exhausted := SkipWhile(NotHash);
      if exhausted {
        return;
      }
      if current.symbol == '#' {
        current.state := H;
        exhausted := NextUnlessEof();
      } else {
        error.symbol := [current.symbol];
        current.state := Err;
      }
    }

    /** dlm_state_processing */
    method DlmStateProcessing() returns (exhausted: bool)
      requires Loaded() && current.state == Dlm
      modifies this, fgetc, current
      ensures Loaded()
      ensures DlmStep(fgetc.text, old(Snapshot())) ==
        if exhausted then Exhausted(lexemeTable, identifiersTable) else Moved(Snapshot())
    {
      ghost var t, c := fgetc.text, Snapshot();
      if IsSingleSymbolToken(current.symbol) {
        exhausted := SingleSymbolProcessing(t, c);
        assert DlmStep(t, c) == SingleSymbolStep(t, c);
      } else {
        exhausted := OperatorProcessing(t, c);
        assert DlmStep(t, c) == OperatorStep(t, c);
      }
    }

    /**
     * The first branch of dlm_state_processing: a delimiter, type or
     * arithmetic token of one symbol, then `if not eof_state: next()`.
     */
    method SingleSymbolProcessing(ghost t: string, ghost c: Cfg) returns (exhausted: bool)
      requires Loaded() && t == fgetc.text && Snapshot() == c && c.state == Dlm
      requires IsSingleSymbolToken(current.symbol)
      modifies this, fgetc, current
      ensures Loaded()
      ensures SingleSymbolStep(t, c) ==
        if exhausted then Exhausted(lexemeTable, identifiersTable) else Moved(Snapshot())
    {
      var s := current.symbol;
      AddToken(SymbolKind(s), [s]);
      exhausted := NextUnlessEof();
      current.state := H;
    }

    /**
     * The operator branch of dlm_state_processing, with its one-symbol
     * lookahead: a relational pair, or one symbol with the lookahead kept.
     */
    method OperatorProcessing(ghost t: string, ghost c: Cfg) returns (exhausted: bool)
      requires Loaded() && t == fgetc.text && Snapshot() == c
      modifies this, fgetc, current
      ensures Loaded()
      ensures OperatorStep(t, c) ==
        if exhausted then Exhausted(lexemeTable, identifiersTable) else Moved(Snapshot())
    {
      exhausted := false;
      var tempSymbol := current.symbol;
      if !current.eofState {
        exhausted := ReAssignNext();
        if exhausted {
          assert Scanner.Advance(t, c.i) == None;
          return;
        }
        exhausted := PairOrSingle(tempSymbol, t, c);
      } else {
        AddToken(Oper, [current.symbol]);
        current.state := H;
        assert OperatorStep(t, c) == Moved(c.(state := H, tokens := c.tokens + [Token(Oper, [t[c.i]])]));
      }
    }

    /**
     * The lookahead of the operator branch is loaded: a relational pair is
     * one token and the symbol after it is read; otherwise the first symbol
     * alone is a token and the lookahead stays the current symbol.
     */
    method PairOrSingle(tempSymbol: char, ghost t: string, ghost c: Cfg) returns (exhausted: bool)
      requires Loaded() && t == fgetc.text && c.i + 1 == fgetc.next - 1
      requires t[c.i] == tempSymbol && tempSymbol != Sentinel
      requires Snapshot() == c.(i := c.i + 1)
      modifies this, fgetc, current
      ensures Loaded()
      ensures OperatorStep(t, c) ==
        if exhausted then Exhausted(lexemeTable, identifiersTable) else Moved(Snapshot())
    {
      exhausted := false;
      assert Scanner.Advance(t, c.i) == Some(c.i + 1);
      if IsRelationalPair(tempSymbol, current.symbol) {
        AddToken(Oper, [tempSymbol, current.symbol]);
        exhausted := NextUnlessEof();
      } else {
        AddToken(Oper, [tempSymbol]);
      }
      current.state := H;
    }

    /** err_state_processing: the exception carries the error symbol and the cursor's position. */
    method ErrStateProcessing() returns (h: Halt)
      requires Loaded()
      ensures h == Raised(error.symbol, LineAt(fgetc.text, fgetc.next - 1), ColAt(fgetc.text, fgetc.next - 1))
    {
      h := Raised(error.symbol, current.lineNumber, current.posNumber);
    }

    /**
     * The buffer loop of id_state_processing and nm_state_processing:
     * `while not eof_state and <symbol in cls>: buf.append(symbol); next()`.
     * It returns the symbols appended.
     */
    method AppendWhile(cls: CharClass) returns (run: string, exhausted: bool)
      requires Loaded()
      modifies fgetc, current
      ensures Loaded() && current.state == old(current.state) && old(fgetc.next) <= fgetc.next
      ensures exhausted ==> SkipFrom(fgetc.text, old(fgetc.next) - 1, cls) == None
      ensures !exhausted ==> SkipFrom(fgetc.text, old(fgetc.next) - 1, cls) == Some(fgetc.next - 1)
      ensures !exhausted ==> run == fgetc.text[old(fgetc.next) - 1..fgetc.next - 1]
    {
      ghost var t, j := fgetc.text, fgetc.next - 1;
      run, exhausted := [], false;
      while !current.eofState && InClass(current.symbol, cls)
        invariant Loaded() && current.state == old(current.state) && j <= fgetc.next - 1
        invariant run == t[j..fgetc.next - 1]
        invariant SkipFrom(t, fgetc.next - 1, cls) == SkipFrom(t, j, cls)
        decreases |t| - fgetc.next
      {
        run := run + [current.symbol];
        assert t[j..fgetc.next] == t[j..fgetc.next - 1] + [t[fgetc.next - 1]];
        exhausted := ReAssignNext();
        if exhausted {
          return;
        }
      }
    }

    /**
     * The start of id_state_processing and nm_state_processing: the buffer
     * holds the current symbol, `if not eof_state: next()`, then the buffer
     * loop.
     */
    method ReadBuffer(cls: CharClass) returns (buf: string, exhausted: bool)
      requires Loaded()
      modifies fgetc, current
      ensures Loaded() && current.state == old(current.state)
      ensures BufferFrom(fgetc.text, old(fgetc.next) - 1, cls) ==
        if exhausted then None else Some((buf, fgetc.next - 1))
    {
      ghost var t, i := fgetc.text, fgetc.next - 1;
      buf := [current.symbol];
      exhausted := false;
      if !current.eofState {
        exhausted := ReAssignNext();
        if exhausted {
          return;
        }
      }
      ghost var j := fgetc.next - 1;
      assert AdvanceUnlessEof(t, i) == Some(j);
      var run;
      run, exhausted := AppendWhile(cls);
      if exhausted {
        return;
      }
      buf := buf + run;
    }

    /** id_state_processing */
    method IdStateProcessing() returns (exhausted: bool)
      requires Loaded() && current.state == Id
      modifies this, fgetc, current
      ensures Loaded()
      ensures IdStep(fgetc.text, old(Snapshot())) ==
        if exhausted then Exhausted(lexemeTable, identifiersTable) else Moved(Snapshot())
    {
      ghost var t, c := fgetc.text, Snapshot();
      var buf;
      buf, exhausted := ReadBuffer(IdChar);
      if exhausted {
        return;
      }
      EmitWord(buf, t, c);
    }

    /**
     * The end of id_state_processing: the word is classified against the
     * keyword and type tables, unknown words enter the identifier table, and
     * the state returns to H.  The ghost parameters name the round that read
     * the buffer.
     */
    method EmitWord(buf: string, ghost t: string, ghost c: Cfg)
      requires Loaded() && t == fgetc.text && c.i < |t|
      requires BufferFrom(t, c.i, IdChar) == Some((buf, fgetc.next - 1))
      requires Snapshot() == c.(i := fgetc.next - 1)
      modifies this, current
      ensures Loaded()
      ensures Snapshot() == ClassifyWord(old(Snapshot()).(state := H), buf)
      ensures IdStep(t, c) == Moved(Snapshot())
    {
      if buf in Keywords {
        AddToken(Kword, buf);
      } else if buf in Types {
        AddToken(TypeName, buf);
      } else {
        AddToken(Kword, buf);
        if buf !in Keywords {
          identifiersTable := identifiersTable + {buf};
        }
      }
      current.state := H;
    }

    /** nm_state_processing */
    method NmStateProcessing() returns (exhausted: bool)
      requires Loaded() && current.state == Nm
      modifies this, fgetc, current, error
      ensures Loaded()
      ensures NmStep(fgetc.text, old(Snapshot())) ==
        if exhausted then Exhausted(lexemeTable, identifiersTable) else Moved(Snapshot())
    {
      ghost var t, c := fgetc.text, Snapshot();
      var buf;
      buf, exhausted := ReadBuffer(NumChar);
      if exhausted {
        return;
      }
      EmitNumber(buf, t, c);
    }

    /**
     * The end of nm_state_processing: a number token and back to H, or the
     * buffer becomes the error symbol.  The ghost parameters name the round
     * that read the buffer.
     */
    method EmitNumber(buf: string, ghost t: string, ghost c: Cfg)
      requires Loaded() && t == fgetc.text && c.i < |t|
      requires BufferFrom(t, c.i, NumChar) == Some((buf, fgetc.next - 1))
      requires Snapshot() == c.(i := fgetc.next - 1)
      modifies this, current, error
      ensures Loaded()
      ensures Snapshot() == ClassifyNumber(old(Snapshot()), buf)
      ensures NmStep(t, c) == Moved(Snapshot())
    {
      var kind := IsNum(buf);
      if kind.Some? {
        AddToken(kind.value, buf);
        current.state := H;
      } else {
        error.symbol := buf;
        current.state := Err;
      }
    }

    /**
     * One pass of the dispatch loop of analysis in a state other than ERR:
     * the processing method of the current state.
     */
    method Round() returns (exhausted: bool)
      requires Loaded() && !current.eofState && current.state != Err
      requires Entered(fgetc.text, Snapshot())
      modifies this, fgetc, current, error
      ensures Loaded()
      ensures Step(fgetc.text, old(Snapshot())) ==
        if exhausted then Exhausted(lexemeTable, identifiersTable) else Moved(Snapshot())
      ensures !exhausted ==> Entered(fgetc.text, Snapshot())
      ensures Run(fgetc.text, old(Snapshot())) ==
        if exhausted then Final(lexemeTable, identifiersTable, StreamExhausted) else Run(fgetc.text, Snapshot())
    {
      ghost var t, c := fgetc.text, Snapshot();
      exhausted := Dispatch();
      RunSteps(t, c);
    }

    /** The if-chain of analysis over the states other than ERR. */
    method Dispatch() returns (exhausted: bool)
      requires Loaded() && !current.eofState && current.state != Err
      requires Entered(fgetc.text, Snapshot())
      modifies this, fgetc, current, error
      ensures Loaded()
      ensures Step(fgetc.text, old(Snapshot())) ==
        if exhausted then Exhausted(lexemeTable, identifiersTable) else Moved(Snapshot())
    {
      if current.state == H {
        exhausted := HStateProcessing();
      } else if current.state == Comm {
        exhausted := CommStateProcessing();
      } else if current.state == Id {
        exhausted := IdStateProcessing();
      } else if current.state == Nm {
        exhausted := NmStateProcessing();
      } else {
        exhausted := DlmStateProcessing();
      }
    }

    /**
     * analysis: load the first symbol, then dispatch on the state until the
     * current symbol is the sentinel.  The result says how it ended; the
     * token list and the identifier table are left in the fields.
     */
    method Analysis() returns (halt: Halt)
      requires Fresh()
      modifies this, fgetc, current, error
      ensures Final(lexemeTable, identifiersTable, halt) == Run(fgetc.text, Initial(old(identifiersTable)))
    {
      ghost var t, goal := fgetc.text, Run(fgetc.text, Initial(identifiersTable));
      current.state := H;
      var exhausted := ReAssignNext();
      assert Snapshot() == Initial(identifiersTable);
      while !current.eofState
        invariant Loaded() && Entered(t, Snapshot())
        invariant Run(t, Snapshot()) == goal
        decreases |t| - fgetc.next, Rank(current.state)
      {
        if current.state == Err {
          RunEnds(t, Snapshot());
          halt := ErrStateProcessing();
          return;
        }
        exhausted := Round();
        if exhausted {
          halt := StreamExhausted;
          return;
        }
      }
      RunEnds(t, Snapshot());
      halt := AtSentinel;
    }
  }
}

=== FILE: numbers.dfy ===
/**
 * is_num: the five anchored numeric-literal formats, tested in priority
 * order REAL, NUM2, NUM8, NUM10, NUM16.  Each format is written twice: as a
 * left-to-right scanner built on digit-run lengths (what IsNum runs), and as
 * the language of its regular expression, stated with quantifiers over the
 * literal alphabets (split points chosen existentially).  The two are proved
 * equal, and the five formats are proved pairwise disjoint, so the priority
 * order never decides between two matching formats.
 */
module NumberFormats {
  import opened Tokens

  /** The digit alphabets the formats use. */
  datatype Radix = Bin | Oct | Dec | Hex

  predicate IsRadixDigit(c: char, r: Radix) {
    match r
    case Bin => c == '0' || c == '1'
    case Oct => '0' <= c <= '7'
    case Dec => IsDigit(c)
    case Hex => IsDigit(c) || 'A' <= c <= 'F' || 'a' <= c <= 'f'
  }

  /** The alphabets as the regular expressions spell them. */
  function Alphabet(r: Radix): string {
    match r
    case Bin => "01"
    case Oct => "01234567"
    case Dec => "0123456789"
    case Hex => "0123456789ABCDEFabcdef"
  }

  lemma RadixDigitIsAlphabet(c: char, r: Radix)
    ensures IsRadixDigit(c, r) <==> c in Alphabet(r)
  {
  }

  /** Length of the longest prefix of s made of digits of radix r. */
  function RunLength(s: string, r: Radix): (n: nat)
    ensures n <= |s|
  {
    if |s| == 0 || !IsRadixDigit(s[0], r) then 0 else 1 + RunLength(s[1..], r)
  }

  /** The run is made of digits and is maximal. */
  lemma {:induction false} RunLengthIsMaximal(s: string, r: Radix)
    ensures forall k :: 0 <= k < RunLength(s, r) ==> IsRadixDigit(s[k], r)
    ensures RunLength(s, r) < |s| ==> !IsRadixDigit(s[RunLength(s, r)], r)
  {
    if |s| > 0 && IsRadixDigit(s[0], r) {
      RunLengthIsMaximal(s[1..], r);
      assert forall k :: 1 <= k < |s| ==> s[k] == s[1..][k - 1];
    }
  }

  /** Any maximal run of digits from the start is the one RunLength measures. */
  lemma {:induction false} MaximalRunIsRunLength(s: string, r: Radix, p: nat)
    requires p <= |s| && (forall k :: 0 <= k < p ==> IsRadixDigit(s[k], r))
    requires p < |s| ==> !IsRadixDigit(s[p], r)
    ensures p == RunLength(s, r)
  {
    if p > 0 {
      assert forall k :: 0 <= k < p - 1 ==> s[1..][k] == s[k + 1];
      MaximalRunIsRunLength(s[1..], r, p - 1);
    }
  }

  /** The whole of s is a run exactly when every symbol is in the alphabet. */
  lemma RunCoversAll(s: string, r: Radix)
    ensures RunLength(s, r) == |s| <==> AllIn(s, Alphabet(r))
  {
    RunLengthIsMaximal(s, r);
    forall k | 0 <= k < |s| {
      RadixDigitIsAlphabet(s[k], r);
    }
    if AllIn(s, Alphabet(r)) {
      MaximalRunIsRunLength(s, r, |s|);
    }
  }

  // ----- the scanners IsNum runs -----

  /** `\d+`, scanned. */
  predicate ScanDigits(s: string) {
    |s| > 0 && RunLength(s, Dec) == |s|
  }

  /** `[+-]?\d+`, scanned. */
  predicate ScanSigned(s: string) {
    ScanDigits(s) || (|s| > 0 && (s[0] == '+' || s[0] == '-') && ScanDigits(s[1..]))
  }

  /** `[Ee][+-]?\d+`, scanned. */
  predicate ScanExponent(s: string) {
    |s| > 0 && (s[0] == 'E' || s[0] == 'e') && ScanSigned(s[1..])
  }

  /** `^\d+[Ee][+-]?\d+$`: the digit run is maximal, then an exponent. */
  predicate ScanRealExp(s: string) {
    var p := RunLength(s, Dec);
    0 < p && ScanExponent(s[p..])
  }

  /** `^\d*\.\d+([Ee][+-]?\d+)?$`: the maximal digit run, the point, then a fraction. */
  predicate ScanRealFrac(s: string) {
    var p := RunLength(s, Dec);
    p < |s| && s[p] == '.' && ScanFraction(s[p + 1..])
  }

  /** `\d+([Ee][+-]?\d+)?`, scanned: a maximal digit run, then nothing or an exponent. */
  predicate ScanFraction(u: string) {
    var m := RunLength(u, Dec);
    0 < m && (m == |u| || ScanExponent(u[m..]))
  }

  /** `^[01]+[Bb]$` */
  predicate BinLiteral(s: string) {
    |s| >= 2 && (s[|s| - 1] == 'B' || s[|s| - 1] == 'b') && RunLength(s[..|s| - 1], Bin) == |s| - 1
  }

  /** `^[01234567]+[Oo]$` */
  predicate OctLiteral(s: string) {
    |s| >= 2 && (s[|s| - 1] == 'O' || s[|s| - 1] == 'o') && RunLength(s[..|s| - 1], Oct) == |s| - 1
  }

  /** `^\d+[dD]?$`: the optional suffix is resolved by looking at the last symbol. */
  predicate ScanDec(s: string) {
    ScanDigits(s) || (|s| >= 2 && (s[|s| - 1] == 'd' || s[|s| - 1] == 'D') && ScanDigits(s[..|s| - 1]))
  }

  /** `^\d[0-9ABCDEFabcdef]*[Hh]$` */
  predicate HexLiteral(s: string) {
    |s| >= 2 && IsDigit(s[0]) && (s[|s| - 1] == 'H' || s[|s| - 1] == 'h') &&
    RunLength(s[1..|s| - 1], Hex) == |s| - 2
  }

  /** is_num: the first format that matches decides the kind; None is `(False, False)`. */
  function IsNum(s: string): (r: Option<TokenKind>)
    ensures r.Some? ==> r.value in {Real, Num2, Num8, Num10, Num16}
  {
    if ScanRealExp(s) || ScanRealFrac(s) then Some(Real)
    else if BinLiteral(s) then Some(Num2)
    else if OctLiteral(s) then Some(Num8)
    else if ScanDec(s) then Some(Num10)
    else if HexLiteral(s) then Some(Num16)
    else None
  }

  // ----- the languages of the regular expressions -----

  ghost predicate AllIn(s: string, alphabet: string) {
    forall k :: 0 <= k < |s| ==> s[k] in alphabet
  }

  /** Language of `\d+`. */
  ghost predicate DigitsLang(s: string) {
    |s| > 0 && AllIn(s, "0123456789")
  }

  /** Language of `[+-]?\d+`. */
  ghost predicate SignedLang(s: string) {
    DigitsLang(s) || (|s| > 0 && s[0] in "+-" && DigitsLang(s[1..]))
  }

  /** Language of `[Ee][+-]?\d+`. */
  ghost predicate ExponentLang(s: string) {
    |s| > 0 && s[0] in "Ee" && SignedLang(s[1..])
  }

  /** Language of `\d+[Ee][+-]?\d+`. */
  ghost predicate RealExpLang(s: string) {
    exists p :: 0 < p < |s| && DigitsLang(s[..p]) && ExponentLang(s[p..])
  }

  /** s is `\d*` up to p, the point at p, `\d+` up to q, and an optional exponent after. */
  ghost predicate FracSplit(s: string, p: int, q: int) {
    0 <= p < q <= |s| && AllIn(s[..p], "0123456789") && s[p] == '.' &&
    DigitsLang(s[p + 1..q]) && (q == |s| || ExponentLang(s[q..]))
  }

  /** Language of `\d*\.\d+([Ee][+-]?\d+)?`. */
  ghost predicate RealFracLang(s: string) {
    exists p, q :: FracSplit(s, p, q)
  }

  /** Language of `[01]+[Bb]`. */
  ghost predicate BinLang(s: string) {
    |s| >= 2 && s[|s| - 1] in "Bb" && AllIn(s[..|s| - 1], "01")
  }

  /** Language of `[01234567]+[Oo]`. */
  ghost predicate OctLang(s: string) {
    |s| >= 2 && s[|s| - 1] in "Oo" && AllIn(s[..|s| - 1], "01234567")
  }

  /** Language of `\d+[dD]?`, as a union of the two choices of the optional part. */
  ghost predicate DecLang(s: string) {
    exists n :: 0 < n <= |s| && DigitsLang(s[..n]) && (n == |s| || (n + 1 == |s| && s[n] in "dD"))
  }

  /** Language of `\d[0-9ABCDEFabcdef]*[Hh]`. */
  ghost predicate HexLang(s: string) {
    |s| >= 2 && s[0] in "0123456789" && s[|s| - 1] in "Hh" && AllIn(s[1..|s| - 1], "0123456789ABCDEFabcdef")
  }

  /** Whether s is in the language of the format that yields kind k. */
  ghost predicate InFormat(s: string, k: TokenKind) {
    match k
    case Real => RealExpLang(s) || RealFracLang(s)
    case Num2 => BinLang(s)
    case Num8 => OctLang(s)
    case Num10 => DecLang(s)
    case Num16 => HexLang(s)
    case _ => false
  }

  // ----- scanners equal languages -----

  lemma ScanDigitsIsLanguage(s: string)
    ensures ScanDigits(s) <==> DigitsLang(s)
  {
    RunCoversAll(s, Dec);
  }

  lemma ScanExponentIsLanguage(s: string)
    ensures ScanExponent(s) <==> ExponentLang(s)
  {
    if |s| > 0 {
      ScanDigitsIsLanguage(s[1..]);
      if |s| > 1 {
        ScanDigitsIsLanguage(s[1..][1..]);
      }
    }
  }

  lemma ScanRealExpIsLanguage(s: string)
    ensures ScanRealExp(s) <==> RealExpLang(s)
  {
    var p := RunLength(s, Dec);
    RunLengthIsMaximal(s, Dec);
    if ScanRealExp(s) {
      ScanExponentIsLanguage(s[p..]);
      assert s[p..][0] == s[p];
      RunCoversAll(s[..p], Dec);
      MaximalRunIsRunLength(s[..p], Dec, p);
      assert 0 < p < |s| && DigitsLang(s[..p]) && ExponentLang(s[p..]);
    }
    if RealExpLang(s) {
      var p' :| 0 < p' < |s| && DigitsLang(s[..p']) && ExponentLang(s[p'..]);
      ExponentSplitIsRun(s, p');
      ScanExponentIsLanguage(s[p'..]);
    }
  }

  /** A digit run followed by an exponent is the maximal digit run. */
  lemma ExponentSplitIsRun(s: string, p: nat)
    requires 0 < p < |s| && DigitsLang(s[..p]) && ExponentLang(s[p..])
    ensures p == RunLength(s, Dec)
  {
    assert s[p..][0] == s[p];
    RunCoversAll(s[..p], Dec);
    RunLengthIsMaximal(s[..p], Dec);
    assert forall k :: 0 <= k < p ==> s[..p][k] == s[k];
    MaximalRunIsRunLength(s, Dec, p);
  }

  lemma ScanRealFracIsLanguage(s: string)
    ensures ScanRealFrac(s) <==> RealFracLang(s)
  {
    if ScanRealFrac(s) {
      ScanRealFracWitness(s);
    }
    if RealFracLang(s) {
      var p, q :| FracSplit(s, p, q);
      FracSplitScans(s, p, q);
    }
  }

  lemma FracSplitScans(s: string, p: nat, q: nat)
    requires FracSplit(s, p, q)
    ensures ScanRealFrac(s)
  {
    FracSplitIsRun(s, p, q);
    var u := s[p + 1..];
    if q < |s| {
      assert s[q..] == u[q - p - 1..];
      ScanExponentIsLanguage(s[q..]);
    }
  }

  lemma ScanRealFracWitness(s: string)
    requires ScanRealFrac(s)
    ensures RealFracLang(s)
  {
    var p := RunLength(s, Dec);
    var u := s[p + 1..];
    var m := RunLength(u, Dec);
    var q := p + 1 + m;
    RunPrefixInAlphabet(s, Dec);
    RunPrefixInAlphabet(u, Dec);
    assert s[p + 1..q] == u[..m];
    if q < |s| {
      assert s[q..] == u[m..];
      ScanExponentIsLanguage(s[q..]);
    }
    assert FracSplit(s, p, q);
  }

  lemma FracSplitIsRun(s: string, p: nat, q: nat)
    requires FracSplit(s, p, q)
    ensures p == RunLength(s, Dec) && q - p - 1 == RunLength(s[p + 1..], Dec)
  {
    AllInPrefixIsRun(s, Dec, p);
    var u := s[p + 1..];
    assert s[p + 1..q] == u[..q - p - 1];
    if q < |s| {
      assert s[q..][0] == s[q] && u[q - p - 1] == s[q];
    }
    AllInPrefixIsRun(u, Dec, q - p - 1);
  }

  /** The symbols of the maximal run are in the alphabet. */
  lemma RunPrefixInAlphabet(u: string, r: Radix)
    ensures AllIn(u[..RunLength(u, r)], Alphabet(r))
  {
    var n := RunLength(u, r);
    RunLengthIsMaximal(u, r);
    forall k | 0 <= k < n
      ensures u[..n][k] in Alphabet(r)
    {
      RadixDigitIsAlphabet(u[k], r);
    }
  }

  /** A prefix in the alphabet followed by a symbol outside it is the maximal run. */
  lemma AllInPrefixIsRun(s: string, r: Radix, p: nat)
    requires p <= |s| && AllIn(s[..p], Alphabet(r))
    requires p < |s| ==> !IsRadixDigit(s[p], r)
    ensures p == RunLength(s, r)
  {
    forall k | 0 <= k < p
      ensures IsRadixDigit(s[k], r)
    {
      assert s[..p][k] == s[k];
      RadixDigitIsAlphabet(s[k], r);
    }
    MaximalRunIsRunLength(s, r, p);
  }

  lemma ScanDecIsLanguage(s: string)
    ensures ScanDec(s) <==> DecLang(s)
  {
    ScanDigitsIsLanguage(s);
    if |s| >= 1 {
      ScanDigitsIsLanguage(s[..|s| - 1]);
    }
    if DigitsLang(s) {
      assert s[..|s|] == s;
    }
    if DecLang(s) {
      var n :| 0 < n <= |s| && DigitsLang(s[..n]) && (n == |s| || (n + 1 == |s| && s[n] in "dD"));
      if n == |s| {
        assert s[..n] == s;
      }
    }
  }

  lemma BinLiteralIsLanguage(s: string)
    ensures BinLiteral(s) <==> BinLang(s)
  {
    if |s| >= 2 {
      RunCoversAll(s[..|s| - 1], Bin);
    }
  }

  lemma OctLiteralIsLanguage(s: string)
    ensures OctLiteral(s) <==> OctLang(s)
  {
    if |s| >= 2 {
      RunCoversAll(s[..|s| - 1], Oct);
    }
  }

  lemma HexLiteralIsLanguage(s: string)
    ensures HexLiteral(s) <==> HexLang(s)
  {
    if |s| >= 2 {
      RunCoversAll(s[1..|s| - 1], Hex);
    }
  }

  lemma LiteralsAreLanguages(s: string)
    ensures BinLiteral(s) <==> BinLang(s)
    ensures OctLiteral(s) <==> OctLang(s)
    ensures HexLiteral(s) <==> HexLang(s)
  {
    BinLiteralIsLanguage(s);
    OctLiteralIsLanguage(s);
    HexLiteralIsLanguage(s);
  }

  // ----- disjointness -----

  lemma ScanDigitsEndsInDigit(s: string)
    requires ScanDigits(s)
    ensures IsDigit(s[|s| - 1])
  {
    RunLengthIsMaximal(s, Dec);
  }

  lemma ScanExponentEndsInDigit(s: string)
    requires ScanExponent(s)
    ensures |s| > 1 && IsDigit(s[|s| - 1])
  {
    var t := s[1..];
    if ScanDigits(t) {
      ScanDigitsEndsInDigit(t);
    } else {
      ScanDigitsEndsInDigit(t[1..]);
      assert t[1..][|t| - 2] == t[|t| - 1];
    }
    assert t[|t| - 1] == s[|s| - 1];
  }

  lemma RealExpShape(s: string)
    requires ScanRealExp(s)
    ensures |s| > 0 && IsDigit(s[|s| - 1])
    ensures RunLength(s, Dec) < |s|
  {
    var p := RunLength(s, Dec);
    ScanExponentEndsInDigit(s[p..]);
    assert s[p..][|s| - p - 1] == s[|s| - 1];
  }

  lemma ScanFractionEndsInDigit(u: string)
    requires ScanFraction(u)
    ensures |u| > 0 && IsDigit(u[|u| - 1])
  {
    var m := RunLength(u, Dec);
    if m == |u| {
      RunLengthIsMaximal(u, Dec);
    } else {
      ScanExponentEndsInDigit(u[m..]);
      assert u[m..][|u| - m - 1] == u[|u| - 1];
    }
  }

  lemma RealFracShape(s: string)
    requires ScanRealFrac(s)
    ensures |s| > 0 && IsDigit(s[|s| - 1])
    ensures RunLength(s, Dec) < |s|
  {
    var u := s[RunLength(s, Dec) + 1..];
    ScanFractionEndsInDigit(u);
    assert u[|u| - 1] == s[|s| - 1];
  }

  /** A real literal ends in a digit, and its leading digit run stops short of the end. */
  lemma RealShape(s: string)
    requires ScanRealExp(s) || ScanRealFrac(s)
    ensures |s| > 0 && IsDigit(s[|s| - 1])
    ensures RunLength(s, Dec) < |s|
  {
    if ScanRealExp(s) {
      RealExpShape(s);
    } else {
      RealFracShape(s);
    }
  }

  /** At most one of the five formats matches any buffer. */
  lemma FormatsDisjoint(s: string)
    ensures ScanRealExp(s) || ScanRealFrac(s) ==> !BinLiteral(s) && !OctLiteral(s) && !ScanDec(s) && !HexLiteral(s)
    ensures BinLiteral(s) ==> !OctLiteral(s) && !ScanDec(s) && !HexLiteral(s)
    ensures OctLiteral(s) ==> !ScanDec(s) && !HexLiteral(s)
    ensures ScanDec(s) ==> !HexLiteral(s)
  {
    if ScanRealExp(s) || ScanRealFrac(s) {
      RealShape(s);
    }
    if ScanDigits(s) {
      ScanDigitsEndsInDigit(s);
    }
  }

  /** IsNum yields kind k exactly when the buffer is in the language of format k. */
  lemma IsNumClassifies(s: string, k: TokenKind)
    ensures IsNum(s) == Some(k) <==> InFormat(s, k)
  {
    ScanRealExpIsLanguage(s);
    ScanRealFracIsLanguage(s);
    ScanDecIsLanguage(s);
    LiteralsAreLanguages(s);
    FormatsDisjoint(s);
  }

  /** IsNum rejects exactly the buffers that are in none of the five languages. */
  lemma IsNumRejects(s: string)
    ensures IsNum(s) == None <==>
      !InFormat(s, Real) && !InFormat(s, Num2) && !InFormat(s, Num8) &&
      !InFormat(s, Num10) && !InFormat(s, Num16)
  {
    ScanRealExpIsLanguage(s);
    ScanRealFracIsLanguage(s);
    ScanDecIsLanguage(s);
    LiteralsAreLanguages(s);
  }

  /** Every accepted buffer starts with a digit or the point. */
  lemma AcceptedStartsAsNumber(s: string)
    ensures IsNum(s).Some? ==> |s| > 0 && IsNumStart(s[0])
  {
    if IsNum(s).Some? {
      var p := RunLength(s, Dec);
      if 0 < p {
        RunLengthIsMaximal(s, Dec);
      } else if BinLiteral(s) || OctLiteral(s) {
        assert s[..|s| - 1][0] == s[0];
      }
    }
  }

  // ----- buffers of each format, and buffers that match none -----

  lemma FractionExample()
    ensures IsNum("3.14") == Some(Real)
  {
    var s := "3.14";
    assert s[2..] == "14" && RunLength("14", Dec) == 2;
    assert RunLength(s, Dec) == 1;
  }

  lemma PointFirstExample()
    ensures IsNum(".5") == Some(Real)
  {
    var s := ".5";
    assert s[1..] == "5" && RunLength("5", Dec) == 1;
    assert RunLength(s, Dec) == 0;
  }

  lemma ExponentExample()
    ensures IsNum("1e5") == Some(Real)
  {
    var s := "1e5";
    assert s[1..] == "e5" && "e5"[1..] == "5" && RunLength("5", Dec) == 1;
    assert RunLength(s, Dec) == 1;
  }

  lemma BinaryExample()
    ensures IsNum("1010b") == Some(Num2)
  {
    IsNumClassifies("1010b", Num2);
  }

  lemma OctalExample()
    ensures IsNum("17o") == Some(Num8)
  {
    IsNumClassifies("17o", Num8);
  }

  lemma DecimalExamples()
    ensures IsNum("10") == Some(Num10)
    ensures IsNum("10d") == Some(Num10)
  {
    assert "10"[..2] == "10" && "10d"[..2] == "10";
    IsNumClassifies("10", Num10);
    IsNumClassifies("10d", Num10);
  }

  lemma HexExample()
    ensures IsNum("1Ah") == Some(Num16)
  {
    IsNumClassifies("1Ah", Num16);
  }

  /** A sum written without blanks is one buffer that matches no format. */
  lemma SumIsRejected()
    ensures IsNum("1+2") == None
  {
    var s := "1+2";
    assert s[1..][0] == '+' && s[..2][1] == '+';
    assert RunLength(s[1..], Dec) == 0;
    assert RunLength(s, Dec) == 1;
    assert s[..2] == "1+" && "1+"[1..] == "+";
    assert RunLength(s[..2], Bin) == 1 && RunLength(s[..2], Oct) == 1;
  }

  /** An octal suffix on a buffer holding the digit 8 matches no format. */
  lemma BadOctalIsRejected()
    ensures IsNum("18o") == None
  {
    var s := "18o";
    assert s[..2][1] == '8' && s[2..][0] == 'o' && s[2] == 'o';
    assert RunLength(s[2..], Dec) == 0;
    assert RunLength(s, Dec) == 2;
    assert RunLength(s[..2], Oct) == 1;
  }
}

=== FILE: properties.dfy ===
/**
 * What the scanning machine does with whole runs of symbols: where a skip or
 * a buffer stops, what each state makes of the symbols it reads, that nothing
 * after the sentinel is ever looked at, and which error symbols ERR can be
 * raised with.
 */
module ScannerProperties {
  import opened Tokens
  import opened NumberFormats
  import opened Stream
  import opened Scanner

  // ---------------------------------------------------------------------
  // Skips and buffers

  /**
   * A skip started at i stops at the first symbol that is the sentinel or
   * outside the class, and runs out of symbols only when there is none.
   */
  lemma {:induction false} SkipFromReaches(t: string, i: nat, cls: CharClass, k: nat)
    requires i <= k <= |t| && i < |t|
    requires forall m :: i <= m < k ==> t[m] != Sentinel && InClass(t[m], cls)
    requires k < |t| ==> t[k] == Sentinel || !InClass(t[k], cls)
    ensures SkipFrom(t, i, cls) == if k < |t| then Some(k) else None
    decreases k - i
  {
    if i < k && i + 1 < |t| {
      SkipFromReaches(t, i + 1, cls, k);
    }
  }

  /**
   * A buffer started on a symbol other than the sentinel is that symbol and
   * the run of the class after it, up to the symbol that ends the run.
   */
  lemma BufferReaches(t: string, i: nat, cls: CharClass, k: nat)
    requires i < k <= |t| && t[i] != Sentinel
    requires forall m :: i < m < k ==> t[m] != Sentinel && InClass(t[m], cls)
    requires k < |t| ==> t[k] == Sentinel || !InClass(t[k], cls)
    ensures BufferFrom(t, i, cls) == if k < |t| then Some((t[i..k], k)) else None
  {
    if i + 1 < |t| {
      SkipFromReaches(t, i + 1, cls, k);
      if k < |t| {
        assert [t[i]] + t[i + 1..k] == t[i..k];
      }
    }
  }

  /**
   * A buffer started on a symbol other than the sentinel is the segment of
   * the text from that symbol to where the run stops, and every symbol of it
   * after the first is in the class.
   */
  lemma BufferIsSegment(t: string, i: nat, cls: CharClass)
    requires i < |t| && t[i] != Sentinel
    ensures BufferFrom(t, i, cls).Some? ==>
      BufferFrom(t, i, cls).value.0 == t[i..BufferFrom(t, i, cls).value.1]
    ensures BufferFrom(t, i, cls).Some? ==>
      forall m :: i < m < BufferFrom(t, i, cls).value.1 ==> InClass(t[m], cls)
  {
    if i + 1 < |t| {
      SkipFromStops(t, i + 1, cls);
      if SkipFrom(t, i + 1, cls).Some? {
        var k := SkipFrom(t, i + 1, cls).value;
        assert AdvanceUnlessEof(t, i) == Some(i + 1);
        assert t[i..k] == t[i..i + 1] + t[i + 1..k] && t[i..i + 1] == [t[i]];
      }
    }
  }

  // ---------------------------------------------------------------------
  // Nothing after the sentinel is scanned

  /** t1 and t2 agree on every symbol up to the sentinel at k. */
  ghost predicate AgreeThroughSentinel(t1: string, t2: string, k: nat) {
    k < |t1| && k < |t2| && t1[k] == Sentinel && forall m :: 0 <= m <= k ==> t1[m] == t2[m]
  }

  lemma {:induction false} SkipFromLocal(t1: string, t2: string, i: nat, cls: CharClass, k: nat)
    requires i <= k && AgreeThroughSentinel(t1, t2, k)
    ensures SkipFrom(t1, i, cls) == SkipFrom(t2, i, cls)
    ensures SkipFrom(t1, i, cls).Some? && SkipFrom(t1, i, cls).value <= k
    decreases k - i
  {
    assert t1[i] == t2[i];
    if t1[i] != Sentinel && InClass(t1[i], cls) {
      SkipFromLocal(t1, t2, i + 1, cls, k);
    }
  }

  lemma AdvanceLocal(t1: string, t2: string, i: nat, k: nat)
    requires i <= k && AgreeThroughSentinel(t1, t2, k)
    ensures AdvanceUnlessEof(t1, i) == AdvanceUnlessEof(t2, i)
    ensures AdvanceUnlessEof(t1, i).Some? && AdvanceUnlessEof(t1, i).value <= k
  {
    assert t1[i] == t2[i];
  }

  lemma BufferFromLocal(t1: string, t2: string, i: nat, cls: CharClass, k: nat)
    requires i <= k && AgreeThroughSentinel(t1, t2, k)
    ensures BufferFrom(t1, i, cls) == BufferFrom(t2, i, cls)
    ensures BufferFrom(t1, i, cls).Some? && BufferFrom(t1, i, cls).value.1 <= k
  {
    AdvanceLocal(t1, t2, i, k);
    var j := AdvanceUnlessEof(t1, i).value;
    SkipFromLocal(t1, t2, j, cls, k);
    var m := SkipFrom(t1, j, cls).value;
    assert t1[i] == t2[i];
    assert t1[j..m] == t2[j..m];
  }

  lemma HStepLocal(t1: string, t2: string, c: Cfg, k: nat)
    requires c.i <= k && AgreeThroughSentinel(t1, t2, k)
    ensures HStep(t1, c) == HStep(t2, c)
  {
    SkipFromLocal(t1, t2, c.i, Blank, k);
    var j := SkipFrom(t1, c.i, Blank).value;
    assert t1[j] == t2[j];
    AdvanceLocal(t1, t2, j, k);
    assert HDispatch(t1, c.(i := j)) == HDispatch(t2, c.(i := j));
  }

  lemma CommStepLocal(t1: string, t2: string, c: Cfg, k: nat)
    requires c.i <= k && AgreeThroughSentinel(t1, t2, k)
    ensures CommStep(t1, c) == CommStep(t2, c)
  {
    SkipFromLocal(t1, t2, c.i, NotHash, k);
    var j := SkipFrom(t1, c.i, NotHash).value;
    assert t1[j] == t2[j];
    AdvanceLocal(t1, t2, j, k);
  }

  lemma DlmStepLocal(t1: string, t2: string, c: Cfg, k: nat)
    requires c.i <= k && AgreeThroughSentinel(t1, t2, k) && t1[c.i] != Sentinel
    ensures DlmStep(t1, c) == DlmStep(t2, c)
  {
    assert t1[c.i] == t2[c.i];
    AdvanceLocal(t1, t2, c.i, k);
    assert t1[c.i + 1] == t2[c.i + 1];
    AdvanceLocal(t1, t2, c.i + 1, k);
    assert OperatorStep(t1, c) == OperatorStep(t2, c);
  }

  /** One round reads no symbol past the sentinel at k. */
  lemma StepLocal(t1: string, t2: string, c: Cfg, k: nat)
    requires Entered(t1, c) && c.state != Err && t1[c.i] != Sentinel
    requires c.i <= k && AgreeThroughSentinel(t1, t2, k)
    ensures Entered(t2, c) && t2[c.i] != Sentinel
    ensures Step(t1, c) == Step(t2, c)
  {
    assert t1[c.i] == t2[c.i];
    match c.state
    case H => HStepLocal(t1, t2, c, k);
    case Comm => CommStepLocal(t1, t2, c, k);
    case Id => BufferFromLocal(t1, t2, c.i, IdChar, k);
    case Nm => BufferFromLocal(t1, t2, c.i, NumChar, k);
    case Dlm => DlmStepLocal(t1, t2, c, k);
  }

  /** A run reads no symbol past the sentinel at k. */
  lemma {:induction false} RunLocal(t1: string, t2: string, c: Cfg, k: nat)
    requires Entered(t1, c) && c.i <= k && AgreeThroughSentinel(t1, t2, k)
    ensures Entered(t2, c) && Run(t1, c) == Run(t2, c)
    decreases |t1| - c.i, Rank(c.state)
  {
    assert t1[c.i] == t2[c.i];
    RunEnds(t1, c);
    RunEnds(t2, c);
    if t1[c.i] != Sentinel {
      if c.state == Err {
        assert t1[..c.i] == t2[..c.i];
        PositionsArePrefixLocal(t1, t2, c.i);
      } else {
        StepLocal(t1, t2, c, k);
        StepStopsBySentinel(t1, c);
        RunSteps(t1, c);
        RunSteps(t2, c);
        RunLocal(t1, t2, Step(t1, c).c, k);
      }
    }
  }

  /** The symbols after the first '@' of a content never change the analysis. */
  lemma NothingAfterSentinelIsScanned(a: string, b: string, ids: set<string>)
    requires Sentinel !in a
    ensures Lex(a + [Sentinel] + b, ids) == Lex(a + [Sentinel], ids)
  {
    var t1, t2 := Prepare(a + [Sentinel] + b), Prepare(a + [Sentinel]);
    assert forall m :: 0 <= m <= |a| ==> t1[m] == t2[m];
    RunLocal(t1, t2, Initial(ids), |a|);
  }

  // ---------------------------------------------------------------------
  // Whole contents with nothing to emit

  /** A content whose first symbol is '@' yields no token. */
  lemma SentinelFirstYieldsNothing(content: string, ids: set<string>)
    requires |content| > 0 && content[0] == Sentinel
    ensures Lex(content, ids) == Final([], ids, AtSentinel)
  {
    RunEnds(Prepare(content), Initial(ids));
  }

  /** A content of blanks only asks the stream for a symbol past its end. */
  lemma BlanksOnlyExhaust(content: string, ids: set<string>)
    requires forall m :: 0 <= m < |content| ==> IsBlank(content[m])
    ensures Lex(content, ids) == Final([], ids, StreamExhausted)
  {
    var t := Prepare(content);
    assert forall m :: 0 <= m < |t| ==> IsBlank(t[m]) by {
      forall m | 0 <= m < |t| ensures IsBlank(t[m]) {
        if m < |content| {
          assert t[m] == content[m];
        }
      }
    }
    SkipFromReaches(t, 0, Blank, |t|);
    RunSteps(t, Initial(ids));
  }

  /** Blanks and then '@' yield no token and leave the identifier table as it was, whatever follows. */
  lemma BlanksThenSentinel(blanks: string, rest: string, ids: set<string>)
    requires forall m :: 0 <= m < |blanks| ==> IsBlank(blanks[m])
    ensures Lex(blanks + [Sentinel] + rest, ids) == Final([], ids, AtSentinel)
  {
    var t := Prepare(blanks + [Sentinel] + rest);
    var k := |blanks|;
    assert t[k] == Sentinel;
    if k == 0 {
      RunEnds(t, Initial(ids));
    } else {
      assert forall m :: 0 <= m < k ==> t[m] == blanks[m];
      SkipFromReaches(t, 0, Blank, k);
      RunSteps(t, Initial(ids));
      RunEnds(t, Initial(ids).(i := k, state := Err));
    }
  }

  // ---------------------------------------------------------------------
  // The start state

  /** The symbols the start state has no branch for. */
  predicate Unexpected(s: char) {
    !IsBlank(s) && !IsAlpha(s) && !IsNumStart(s) && !IsDlmTrigger(s) &&
    s != '{' && s != '}' && s != '#' && s != Sentinel
  }

  /**
   * After the blanks, a symbol the start state has no branch for sends the
   * machine to ERR, which raises at that symbol's position with the error
   * symbol still empty, and emits nothing more.
   */
  lemma UnexpectedSymbolRaises(t: string, c: Cfg, k: nat)
    requires Entered(t, c) && c.state == H && c.i <= k < |t| && ErrSymbolKept(t, c)
    requires forall j :: c.i <= j < k ==> IsBlank(t[j])
    requires Unexpected(t[k])
    ensures Run(t, c) == Final(c.tokens, c.ids, Raised("", LineAt(t, k), ColAt(t, k)))
  {
    SkipFromReaches(t, c.i, Blank, k);
    RunSteps(t, c);
    RunEnds(t, c.(i := k, state := Err));
  }

  /**
   * The start state skips the blanks; the rest of the run is that of the
   * configuration its dispatch on the first other symbol moves to.
   */
  lemma StartDispatches(t: string, c: Cfg, k: nat)
    requires Entered(t, c) && c.state == H && c.i <= k < |t|
    requires forall j :: c.i <= j < k ==> IsBlank(t[j])
    requires t[k] != Sentinel && !IsBlank(t[k])
    ensures HDispatch(t, c.(i := k)).Moved? ==> Run(t, c) == Run(t, HDispatch(t, c.(i := k)).c)
  {
    SkipFromReaches(t, c.i, Blank, k);
    RunSteps(t, c);
  }

  /** A brace is a KWORD token on its own; the scan goes on with the next symbol. */
  lemma BraceIsKeyword(t: string, c: Cfg)
    requires c.i < |t| && (t[c.i] == '{' || t[c.i] == '}')
    ensures var c1 := c.(state := H, tokens := c.tokens + [Token(Kword, [t[c.i]])]);
      HDispatch(t, c) == if c.i + 1 < |t| then Moved(c1.(i := c.i + 1)) else Exhausted(c1.tokens, c1.ids)
    ensures [t[c.i]] in Keywords
  {
  }

  /** Every round that comes back to H has consumed at least one symbol. */
  lemma ReturnToStartConsumes(t: string, c: Cfg)
    requires Entered(t, c) && c.state != Err && t[c.i] != Sentinel
    ensures Step(t, c).Moved? && Step(t, c).c.state == H ==> c.i < Step(t, c).c.i
  {
  }

  // ---------------------------------------------------------------------
  // Comments

  /** A comment is skipped up to its closing '#'; the scan resumes in H on the symbol after it. */
  lemma CommentSkipped(t: string, c: Cfg, m: nat)
    requires c.i <= m < |t| && t[m] == '#'
    requires forall j :: c.i <= j < m ==> t[j] != '#' && t[j] != Sentinel
    ensures CommStep(t, c) ==
      if m + 1 < |t| then Moved(c.(i := m + 1, state := H)) else Exhausted(c.tokens, c.ids)
  {
    SkipFromReaches(t, c.i, NotHash, m);
  }

  /** A comment that reaches '@' before its closing '#' ends the analysis without an error. */
  lemma UnterminatedCommentIsSilent(t: string, c: Cfg, k: nat)
    requires Entered(t, c) && c.state == Comm && c.i <= k < |t| && t[k] == Sentinel
    requires forall j :: c.i <= j < k ==> t[j] != '#' && t[j] != Sentinel
    ensures Run(t, c) == Final(c.tokens, c.ids, AtSentinel)
  {
    RunEnds(t, c);
    if c.i < k {
      SkipFromReaches(t, c.i, NotHash, k);
      RunSteps(t, c);
      RunEnds(t, c.(i := k, state := Err, errSymbol := [Sentinel]));
    }
  }

  // ---------------------------------------------------------------------
  // Words

  /** A word is the letter that starts it and the run of letters and digits after it. */
  lemma WordBuffer(t: string, c: Cfg, k: nat)
    requires Entered(t, c) && c.state == Id && c.i < k < |t|
    requires forall m :: c.i < m < k ==> IsAlpha(t[m]) || IsDigit(t[m])
    requires !IsAlpha(t[k]) && !IsDigit(t[k])
    ensures IdStep(t, c) == Moved(ClassifyWord(c.(i := k, state := H), t[c.i..k]))
  {
    BufferReaches(t, c.i, IdChar, k);
  }

  /** A word is one token, and the run goes on in H on the symbol that ended it. */
  lemma WordToken(t: string, c: Cfg, k: nat)
    requires Entered(t, c) && c.state == Id && c.i < k < |t|
    requires forall m :: c.i < m < k ==> IsAlpha(t[m]) || IsDigit(t[m])
    requires !IsAlpha(t[k]) && !IsDigit(t[k])
    ensures Run(t, c) == Run(t, ClassifyWord(c.(i := k, state := H), t[c.i..k]))
  {
    WordBuffer(t, c, k);
    RunSteps(t, c);
  }

  /**
   * A word of the keyword table is a KWORD token, a type name a TYPE token,
   * and any other word a KWORD token that joins the identifier table, where
   * a second occurrence adds nothing.
   */
  lemma WordClassification(c: Cfg, w: string)
    ensures ClassifyWord(c, w).i == c.i && ClassifyWord(c, w).state == c.state
    ensures ClassifyWord(c, w).errSymbol == c.errSymbol
    ensures w in Keywords ==>
      ClassifyWord(c, w).tokens == c.tokens + [Token(Kword, w)] && ClassifyWord(c, w).ids == c.ids
    ensures w !in Keywords && w in Types ==>
      ClassifyWord(c, w).tokens == c.tokens + [Token(TypeName, w)] && ClassifyWord(c, w).ids == c.ids
    ensures w !in Keywords && w !in Types ==>
      ClassifyWord(c, w).tokens == c.tokens + [Token(Kword, w)] && ClassifyWord(c, w).ids == c.ids + {w}
    ensures ClassifyWord(ClassifyWord(c, w), w).ids == ClassifyWord(c, w).ids
  {
  }

  // ---------------------------------------------------------------------
  // Numbers

  /** A number buffer is the symbol that starts it and the run of number symbols after it. */
  lemma NumberBuffer(t: string, c: Cfg, k: nat)
    requires Entered(t, c) && c.state == Nm && c.i < k < |t|
    requires forall m :: c.i < m < k ==> IsNumSymbol(t[m])
    requires !IsNumSymbol(t[k])
    ensures NmStep(t, c) == Moved(ClassifyNumber(c.(i := k), t[c.i..k]))
  {
    BufferReaches(t, c.i, NumChar, k);
  }

  /** A buffer in one of the number formats is one token of that format; the scan resumes in H on the symbol that ended it. */
  lemma NumberToken(t: string, c: Cfg, k: nat, kind: TokenKind)
    requires Entered(t, c) && c.state == Nm && c.i < k < |t|
    requires forall m :: c.i < m < k ==> IsNumSymbol(t[m])
    requires !IsNumSymbol(t[k])
    requires InFormat(t[c.i..k], kind)
    ensures Run(t, c) == Run(t, c.(i := k, state := H, tokens := c.tokens + [Token(kind, t[c.i..k])]))
  {
    NumberBuffer(t, c, k);
    IsNumClassifies(t[c.i..k], kind);
    RunSteps(t, c);
  }

  /**
   * A buffer in none of the number formats becomes the error symbol: ERR
   * raises with it at the symbol that ended the buffer, unless that symbol is
   * '@', where the analysis stops without an error.
   */
  lemma MalformedNumber(t: string, c: Cfg, k: nat)
    requires Entered(t, c) && c.state == Nm && c.i < k < |t|
    requires forall m :: c.i < m < k ==> IsNumSymbol(t[m])
    requires !IsNumSymbol(t[k])
    requires IsNum(t[c.i..k]) == None
    ensures t[k] == Sentinel ==> Run(t, c) == Final(c.tokens, c.ids, AtSentinel)
    ensures t[k] != Sentinel ==>
      Run(t, c) == Final(c.tokens, c.ids, Raised(t[c.i..k], LineAt(t, k), ColAt(t, k)))
  {
    NumberBuffer(t, c, k);
    RunSteps(t, c);
    RunEnds(t, c.(i := k, state := Err, errSymbol := t[c.i..k]));
  }

  // ---------------------------------------------------------------------
  // Delimiters and operators

  /**
   * A delimiter or arithmetic symbol is a token on its own, DELIM exactly for
   * the delimiter table and ARITH exactly for the arithmetic table; the scan
   * goes on with the next symbol.
   */
  lemma SingleSymbolTokens(t: string, c: Cfg)
    requires c.i < |t| && IsSingleSymbolToken(t[c.i])
    ensures var c1 := c.(state := H, tokens := c.tokens + [Token(SymbolKind(t[c.i]), [t[c.i]])]);
      DlmStep(t, c) == if c.i + 1 < |t| then Moved(c1.(i := c.i + 1)) else Exhausted(c1.tokens, c1.ids)
    ensures SymbolKind(t[c.i]) == Delim <==> [t[c.i]] in Delimiters
    ensures SymbolKind(t[c.i]) == Arith <==> [t[c.i]] in ArithOps
  {
    DlmTestsAreTableMembership(t[c.i], t[c.i]);
  }

  /**
   * A relational symbol looks one symbol ahead: a pair from the operator
   * table is one OPER token and the scan goes on after it; otherwise the
   * symbol alone is the OPER token and the symbol looked at stays current.
   */
  lemma RelationalLookahead(t: string, c: Cfg)
    requires c.i < |t| && IsDlmTrigger(t[c.i]) && !IsSingleSymbolToken(t[c.i])
    ensures c.i + 1 == |t| ==> DlmStep(t, c) == Exhausted(c.tokens, c.ids)
    ensures c.i + 1 < |t| && t[c.i..c.i + 2] in Operators ==>
      var c1 := c.(state := H, tokens := c.tokens + [Token(Oper, t[c.i..c.i + 2])]);
      DlmStep(t, c) == if c.i + 2 < |t| then Moved(c1.(i := c.i + 2)) else Exhausted(c1.tokens, c1.ids)
    ensures c.i + 1 < |t| && t[c.i..c.i + 2] !in Operators ==>
      DlmStep(t, c) == Moved(c.(i := c.i + 1, state := H, tokens := c.tokens + [Token(Oper, [t[c.i]])]))
  {
    if c.i + 1 < |t| {
      DlmTestsAreTableMembership(t[c.i], t[c.i + 1]);
      assert t[c.i..c.i + 2] == [t[c.i], t[c.i + 1]];
    }
  }

  // ---------------------------------------------------------------------
  // Error symbols

  /**
   * A number buffer in none of the formats: it starts with a symbol that
   * enters NM, extends over number symbols only, and is_num rejects it.
   */
  predicate MalformedBuffer(s: string) {
    |s| > 0 && IsNumStart(s[0]) && (forall m :: 0 < m < |s| ==> IsNumSymbol(s[m])) && IsNum(s) == None
  }

  /**
   * The pending error symbol: empty outside ERR, and in ERR away from the
   * sentinel either still empty (an unexpected symbol in H) or a malformed
   * number buffer.
   */
  predicate ErrSymbolKept(t: string, c: Cfg)
    requires c.i < |t|
  {
    (c.state != Err ==> c.errSymbol == "") &&
    (c.state == Err && t[c.i] != Sentinel ==> c.errSymbol == "" || MalformedBuffer(c.errSymbol))
  }

  /** NM moves to ERR only with a malformed number buffer as the error symbol. */
  lemma NmErrSymbol(t: string, c: Cfg)
    requires c.i < |t| && IsNumStart(t[c.i]) && t[c.i] != Sentinel
    ensures NmStep(t, c).Moved? && NmStep(t, c).c.state == Err ==> MalformedBuffer(NmStep(t, c).c.errSymbol)
  {
    if BufferFrom(t, c.i, NumChar).Some? {
      var (buf, k) := BufferFrom(t, c.i, NumChar).value;
      BufferIsSegment(t, c.i, NumChar);
      assert forall m :: 0 < m < |buf| ==> buf[m] == t[c.i + m] && InClass(t[c.i + m], NumChar);
      assert NmStep(t, c) == Moved(ClassifyNumber(c.(i := k), buf));
    }
  }

  lemma StepKeepsErrSymbol(t: string, c: Cfg)
    requires Entered(t, c) && c.state != Err && t[c.i] != Sentinel && ErrSymbolKept(t, c)
    ensures Step(t, c).Moved? ==> ErrSymbolKept(t, Step(t, c).c)
  {
    if c.state == Nm {
      NmErrSymbol(t, c);
    }
  }

  /** ERR raises either with the empty symbol or with a malformed number buffer. */
  lemma {:induction false} RaisedSymbols(t: string, c: Cfg)
    requires Entered(t, c) && ErrSymbolKept(t, c)
    ensures Run(t, c).halt.Raised? ==> Run(t, c).halt.symbol == "" || MalformedBuffer(Run(t, c).halt.symbol)
    decreases |t| - c.i, Rank(c.state)
  {
    RunEnds(t, c);
    if t[c.i] != Sentinel && c.state != Err {
      RunSteps(t, c);
      StepKeepsErrSymbol(t, c);
      if Step(t, c).Moved? {
        RaisedSymbols(t, Step(t, c).c);
      }
    }
  }

  /** The analysis of any content raises only for an unexpected symbol or a malformed number. */
  lemma LexRaisedSymbols(content: string, ids: set<string>)
    ensures Lex(content, ids).halt.Raised? ==>
      Lex(content, ids).halt.symbol == "" || MalformedBuffer(Lex(content, ids).halt.symbol)
  {
    RaisedSymbols(Prepare(content), Initial(ids));
  }
}

=== FILE: sample_runs.dfy ===
/**
 * Whole analyses of small contents, derived from the state-by-state
 * properties: each shows one behaviour of the lexer end to end, from the
 * first symbol to the halt.
 */
module SampleRuns {
  import opened Tokens
  import opened NumberFormats
  import opened Stream
  import opened Scanner
  import opened ScannerProperties

  /** A symbol the start state has no branch for raises at once, with the empty error symbol, at line 1, column 1. */
  lemma UnexpectedSymbolExample(ids: set<string>)
    ensures Lex("?", ids) == Final([], ids, Raised("", 1, 1))
  {
    var t := Prepare("?");
    UnexpectedSymbolRaises(t, Initial(ids), 0);
  }

  /** "1+2" followed by a blank is one malformed number buffer; ERR raises with it where the blank is. */
  lemma MalformedNumberExample()
    ensures Lex("1+2 ", {}) == Final([], {}, Raised("1+2", 1, 4))
  {
    MalformedNumberRun(Prepare("1+2 "));
  }

  lemma MalformedNumberRun(t: string)
    requires t == "1+2 \n"
    ensures Run(t, Initial({})) == Final([], {}, Raised("1+2", 1, 4))
  {
    NumberEntered(t);
    MalformedBufferRun(t);
    BlankPosition(t);
  }

  lemma NumberEntered(t: string)
    requires |t| > 0 && t[0] == '1'
    ensures Run(t, Initial({})) == Run(t, Initial({}).(state := Nm))
  {
    StartDispatches(t, Initial({}), 0);
  }

  lemma MalformedBufferRun(t: string)
    requires t == "1+2 \n"
    ensures Run(t, Initial({}).(state := Nm)) == Final([], {}, Raised("1+2", LineAt(t, 3), ColAt(t, 3)))
  {
    assert t[0..3] == "1+2";
    SumIsRejected();
    MalformedNumber(t, Initial({}).(state := Nm), 3);
  }

  lemma BlankPosition(t: string)
    requires t == "1+2 \n"
    ensures LineAt(t, 3) == 1 && ColAt(t, 3) == 4
  {
    ColumnOnFirstLine(t, 3);
    assert LineAt(t, 1) == 1 && LineAt(t, 2) == 1;
  }

  /** The same buffer ended by '@' stops the analysis without an error. */
  lemma MalformedNumberAtSentinelExample()
    ensures Lex("1+2@", {}) == Final([], {}, AtSentinel)
  {
    var t := Prepare("1+2@");
    NumberEntered(t);
    MalformedBufferAtSentinel(t);
  }

  lemma MalformedBufferAtSentinel(t: string)
    requires t == "1+2@\n"
    ensures Run(t, Initial({}).(state := Nm)) == Final([], {}, AtSentinel)
  {
    assert t[0..3] == "1+2";
    SumIsRejected();
    MalformedNumber(t, Initial({}).(state := Nm), 3);
  }

  /** A word seen twice gives two KWORD tokens and one identifier table entry. */
  lemma RepeatedIdentifierExample()
    ensures Lex("x1 x1@", {}) == Final([Token(Kword, "x1"), Token(Kword, "x1")], {"x1"}, AtSentinel)
  {
    var t := Prepare("x1 x1@");
    FirstOccurrence(t);
    SecondOccurrence(t);
  }

  lemma FirstOccurrence(t: string)
    requires t == "x1 x1@\n"
    ensures Run(t, Initial({})) == Run(t, Cfg(2, H, [Token(Kword, "x1")], {"x1"}, ""))
  {
    var c1 := Initial({}).(state := Id);
    assert t[0..2] == "x1";
    assert ClassifyWord(c1.(i := 2, state := H), "x1") == Cfg(2, H, [Token(Kword, "x1")], {"x1"}, "");
    StartDispatches(t, Initial({}), 0);
    WordToken(t, c1, 2);
  }

  lemma SecondOccurrence(t: string)
    requires t == "x1 x1@\n"
    ensures Run(t, Cfg(2, H, [Token(Kword, "x1")], {"x1"}, "")) ==
      Final([Token(Kword, "x1"), Token(Kword, "x1")], {"x1"}, AtSentinel)
  {
    var c2 := Cfg(2, H, [Token(Kword, "x1")], {"x1"}, "");
    StartDispatches(t, c2, 3);
    SecondWord(t);
  }

  lemma SecondWord(t: string)
    requires t == "x1 x1@\n"
    ensures Run(t, Cfg(3, Id, [Token(Kword, "x1")], {"x1"}, "")) ==
      Final([Token(Kword, "x1"), Token(Kword, "x1")], {"x1"}, AtSentinel)
  {
    var c3 := Cfg(3, Id, [Token(Kword, "x1")], {"x1"}, "");
    var c4 := Cfg(5, H, [Token(Kword, "x1"), Token(Kword, "x1")], {"x1"}, "");
    assert t[3..5] == "x1";
    assert ClassifyWord(c3.(i := 5, state := H), "x1") == c4;
    WordToken(t, c3, 5);
    RunEnds(t, c4);
  }

  /** '<' followed by a letter is a one-symbol OPER token; the letter stays current and starts the next word. */
  lemma OperatorPushbackExample()
    ensures Lex("a<b@", {}) ==
      Final([Token(Kword, "a"), Token(Oper, "<"), Token(Kword, "b")], {"a", "b"}, AtSentinel)
  {
    var t := Prepare("a<b@");
    WordBeforeOperator(t);
    OperatorAlone(t);
    WordAfterOperator(t);
  }

  lemma WordBeforeOperator(t: string)
    requires t == "a<b@\n"
    ensures Run(t, Initial({})) == Run(t, Cfg(1, H, [Token(Kword, "a")], {"a"}, ""))
  {
    var c1 := Initial({}).(state := Id);
    assert t[0..1] == "a";
    assert ClassifyWord(c1.(i := 1, state := H), "a") == Cfg(1, H, [Token(Kword, "a")], {"a"}, "");
    StartDispatches(t, Initial({}), 0);
    WordToken(t, c1, 1);
  }

  lemma OperatorAlone(t: string)
    requires t == "a<b@\n"
    ensures Run(t, Cfg(1, H, [Token(Kword, "a")], {"a"}, "")) ==
      Run(t, Cfg(2, H, [Token(Kword, "a"), Token(Oper, "<")], {"a"}, ""))
  {
    StartDispatches(t, Cfg(1, H, [Token(Kword, "a")], {"a"}, ""), 1);
    OperatorLookedAhead(t);
  }

  lemma OperatorLookedAhead(t: string)
    requires t == "a<b@\n"
    ensures Run(t, Cfg(1, Dlm, [Token(Kword, "a")], {"a"}, "")) ==
      Run(t, Cfg(2, H, [Token(Kword, "a"), Token(Oper, "<")], {"a"}, ""))
  {
    var c := Cfg(1, Dlm, [Token(Kword, "a")], {"a"}, "");
    assert t[1..3] == "<b" && "<b" !in Operators && [t[1]] == "<";
    RelationalLookahead(t, c);
    assert DlmStep(t, c) == Moved(Cfg(2, H, [Token(Kword, "a"), Token(Oper, "<")], {"a"}, ""));
    RunSteps(t, c);
  }

  lemma WordAfterOperator(t: string)
    requires t == "a<b@\n"
    ensures Run(t, Cfg(2, H, [Token(Kword, "a"), Token(Oper, "<")], {"a"}, "")) ==
      Final([Token(Kword, "a"), Token(Oper, "<"), Token(Kword, "b")], {"a", "b"}, AtSentinel)
  {
    var c4 := Cfg(2, H, [Token(Kword, "a"), Token(Oper, "<")], {"a"}, "");
    var c5 := c4.(state := Id);
    var c6 := Cfg(3, H, [Token(Kword, "a"), Token(Oper, "<"), Token(Kword, "b")], {"a", "b"}, "");
    assert t[2..3] == "b";
    assert ClassifyWord(c5.(i := 3, state := H), "b") == c6;
    StartDispatches(t, c4, 2);
    WordToken(t, c5, 3);
    RunEnds(t, c6);
  }

  /** A comment is skipped; the number after its closing '#' is a decimal token. */
  lemma CommentThenNumberExample()
    ensures Lex("#c#10@", {}) == Final([Token(Num10, "10")], {}, AtSentinel)
  {
    var t := Prepare("#c#10@");
    CommentOpened(t);
    CommentClosed(t);
    NumberAfterComment(t);
    NumberToken10(t);
  }

  lemma CommentOpened(t: string)
    requires t == "#c#10@\n"
    ensures Run(t, Initial({})) == Run(t, Cfg(1, Comm, [], {}, ""))
  {
    StartDispatches(t, Initial({}), 0);
  }

  lemma CommentClosed(t: string)
    requires t == "#c#10@\n"
    ensures Run(t, Cfg(1, Comm, [], {}, "")) == Run(t, Cfg(3, H, [], {}, ""))
  {
    CommentSkipped(t, Cfg(1, Comm, [], {}, ""), 2);
    RunSteps(t, Cfg(1, Comm, [], {}, ""));
  }

  lemma NumberAfterComment(t: string)
    requires t == "#c#10@\n"
    ensures Run(t, Cfg(3, H, [], {}, "")) == Run(t, Cfg(3, Nm, [], {}, ""))
  {
    StartDispatches(t, Cfg(3, H, [], {}, ""), 3);
  }

  lemma NumberToken10(t: string)
    requires t == "#c#10@\n"
    ensures Run(t, Cfg(3, Nm, [], {}, "")) == Final([Token(Num10, "10")], {}, AtSentinel)
  {
    assert t[3..5] == "10";
    DecimalExamples();
    IsNumClassifies("10", Num10);
    NumberToken(t, Cfg(3, Nm, [], {}, ""), 5, Num10);
    RunEnds(t, Cfg(5, H, [Token(Num10, "10")], {}, ""));
  }

  /** An unterminated comment reaching '@' yields nothing and raises nothing. */
  lemma UnterminatedCommentExample()
    ensures Lex("#open@", {}) == Final([], {}, AtSentinel)
  {
    var t := Prepare("#open@");
    UnterminatedCommentOpened(t);
    UnterminatedCommentIsSilent(t, Cfg(1, Comm, [], {}, ""), 5);
  }

  lemma UnterminatedCommentOpened(t: string)
    requires t == "#open@\n"
    ensures Run(t, Initial({})) == Run(t, Cfg(1, Comm, [], {}, ""))
    ensures forall j :: 1 <= j < 5 ==> t[j] != '#' && t[j] != Sentinel
  {
    StartDispatches(t, Initial({}), 0);
  }
}

=== FILE: scanner.dfy ===
/**
 * The scanning machine as pure functions.  A configuration is what the
 * analyzer holds between two rounds of its dispatch loop: the index of the
 * current symbol in the prepared text, the state, the token list, the
 * identifier table and the pending error symbol.  Each state procedure is one
 * function from a configuration to the next one, or to stream exhaustion when
 * it asks for a symbol past the end.  Run is the dispatch loop.
 *
 * The functions carry only quantifier-free facts; what holds of whole runs of
 * symbols (where the sentinel can be, which tokens accumulate) is proved in
 * the lemmas after them.
 */
module Scanner {
  import opened Tokens
  import opened NumberFormats
  import opened Stream

  datatype Cfg = Cfg(i: nat, state: State, tokens: seq<Token>, ids: set<string>, errSymbol: string)

  /** How an analysis ends. */
  datatype Halt =
    | AtSentinel                                   // the loop saw the end flag
    | Raised(symbol: string, line: int, pos: int)  // err_state_processing raised
    | StreamExhausted                              // next() was called past the last symbol

  datatype Final = Final(tokens: seq<Token>, ids: set<string>, halt: Halt)

  /** The outcome of one state procedure. */
  datatype StepOut = Moved(c: Cfg) | Exhausted(tokens: seq<Token>, ids: set<string>)

  function TokensOf(r: StepOut): seq<Token> {
    match r
    case Moved(c) => c.tokens
    case Exhausted(tokens, _) => tokens
  }

  function IdsOf(r: StepOut): set<string> {
    match r
    case Moved(c) => c.ids
    case Exhausted(_, ids) => ids
  }

  /** Every token the analyzer emits has a non-empty lexeme and never the IDENT or NUM kind. */
  predicate Emittable(tok: Token) {
    tok.value != [] && tok.name != Ident && tok.name != Num
  }

  /** One procedure appends at most one token, an emittable one, and only adds identifiers. */
  predicate AtMostOneToken(c: Cfg, r: StepOut) {
    c.ids <= IdsOf(r) &&
    (TokensOf(r) == c.tokens ||
     (|TokensOf(r)| == |c.tokens| + 1 && c.tokens <= TokensOf(r) && Emittable(TokensOf(r)[|c.tokens|])))
  }

  /** The token list is only appended to (with emittable tokens) and the identifier table only grows. */
  predicate Grows(tokens: seq<Token>, ids: set<string>, tokens': seq<Token>, ids': set<string>) {
    tokens <= tokens' && ids <= ids' &&
    forall k :: |tokens| <= k < |tokens'| ==> Emittable(tokens'[k])
  }

  /** A procedure never moves the cursor past a sentinel, and never runs out of symbols before one. */
  ghost predicate StopsBySentinel(t: string, c: Cfg, r: StepOut) {
    forall k :: c.i <= k < |t| && t[k] == Sentinel ==> r.Moved? && r.c.i <= k
  }

  /** What holds of the current symbol on entry to a state. */
  predicate Entered(t: string, c: Cfg) {
    c.i < |t| &&
    (c.state == Id ==> IsAlpha(t[c.i])) &&
    (c.state == Nm ==> IsNumStart(t[c.i])) &&
    (c.state == Dlm ==> IsDlmTrigger(t[c.i]))
  }

  /** Rank of a state in the termination measure. */
  function Rank(s: State): nat {
    match s
    case H => 2
    case Err => 0
    case _ => 1
  }

  /** The loop `while not eof_state and <symbol in cls>: next()`, started at symbol i. */
  function SkipFrom(t: string, i: nat, cls: CharClass): (r: Option<nat>)
    requires i < |t|
    ensures r.Some? ==> i <= r.value < |t| && (t[r.value] == Sentinel || !InClass(t[r.value], cls))
    decreases |t| - i
  {
    if t[i] == Sentinel || !InClass(t[i], cls) then Some(i)
    else if i + 1 == |t| then None
    else SkipFrom(t, i + 1, cls)
  }

  /**
   * The skip passes exactly over symbols of the class that are not the
   * sentinel, and runs out of symbols only when all the rest are such.
   */
  lemma {:induction false} SkipFromStops(t: string, i: nat, cls: CharClass)
    requires i < |t|
    ensures SkipFrom(t, i, cls).Some? ==>
      forall k :: i <= k < SkipFrom(t, i, cls).value ==> t[k] != Sentinel && InClass(t[k], cls)
    ensures SkipFrom(t, i, cls).None? ==> forall k :: i <= k < |t| ==> t[k] != Sentinel && InClass(t[k], cls)
    decreases |t| - i
  {
    if !(t[i] == Sentinel || !InClass(t[i], cls)) && i + 1 < |t| {
      SkipFromStops(t, i + 1, cls);
    }
  }

  /** next() while the cursor is on symbol i: the following symbol, or StopIteration after the last one. */
  function Advance(t: string, i: nat): (r: Option<nat>)
    requires i < |t|
    ensures r.None? <==> i == |t| - 1
    ensures r.Some? ==> r.value == i + 1
  {
    if i + 1 < |t| then Some(i + 1) else None
  }

  /** `if not eof_state: next()`: the cursor stays on the sentinel and otherwise moves one symbol on. */
  function AdvanceUnlessEof(t: string, i: nat): (r: Option<nat>)
    requires i < |t|
    ensures r.None? <==> t[i] != Sentinel && i == |t| - 1
    ensures r.Some? ==> r.value == if t[i] == Sentinel then i else i + 1
  {
    if t[i] == Sentinel then Some(i) else Advance(t, i)
  }

  /**
   * The buffer of id_state_processing and nm_state_processing: the current
   * symbol i, then `if not eof_state: next()`, then the run of cls.  The
   * result holds the buffer and the index of the symbol the run stops at;
   * None when next() is called past the last symbol.
   */
  function BufferFrom(t: string, i: nat, cls: CharClass): (r: Option<(string, nat)>)
    requires i < |t|
    ensures r.Some? ==> i <= r.value.1 < |t| && (t[i] != Sentinel ==> i < r.value.1)
    ensures r.Some? ==> |r.value.0| == r.value.1 - i + (if t[i] == Sentinel then 1 else 0) && r.value.0[0] == t[i]
  {
    match AdvanceUnlessEof(t, i)
    case None => None
    case Some(j) =>
      match SkipFrom(t, j, cls)
      case None => None
      case Some(k) => Some(([t[i]] + t[j..k], k))
  }

  /** The buffer never extends past a sentinel, and runs out of symbols only when there is none. */
  lemma BufferFromStops(t: string, i: nat, cls: CharClass)
    requires i < |t|
    ensures BufferFrom(t, i, cls).Some? ==> forall k :: i <= k < BufferFrom(t, i, cls).value.1 ==> t[k] != Sentinel
    ensures BufferFrom(t, i, cls).None? ==> forall k :: i <= k < |t| ==> t[k] != Sentinel
  {
    if AdvanceUnlessEof(t, i).Some? {
      SkipFromStops(t, AdvanceUnlessEof(t, i).value, cls);
    }
  }

  /** add_token(tok), then `if not eof_state: next()`, back in H. */
  function EmitThenAdvance(t: string, c: Cfg, tok: Token): (r: StepOut)
    requires c.i < |t|
    ensures TokensOf(r) == c.tokens + [tok] && IdsOf(r) == c.ids
    ensures r.Exhausted? <==> t[c.i] != Sentinel && c.i == |t| - 1
    ensures r.Moved? ==>
      r.c.i == (if t[c.i] == Sentinel then c.i else c.i + 1) && r.c.state == H && r.c.errSymbol == c.errSymbol
  {
    var c1 := c.(tokens := c.tokens + [tok], state := H);
    match AdvanceUnlessEof(t, c.i)
    case None => Exhausted(c1.tokens, c1.ids)
    case Some(k) => Moved(c1.(i := k))
  }

  /** h_state_processing */
  function HStep(t: string, c: Cfg): (r: StepOut)
    requires c.i < |t|
    ensures AtMostOneToken(c, r) && IdsOf(r) == c.ids
    ensures r.Moved? ==> Entered(t, r.c) && c.i <= r.c.i && r.c.errSymbol == c.errSymbol
    ensures r.Moved? && r.c.state == H ==> c.i < r.c.i
    ensures r.Moved? && r.c.state == Err ==> r.c.tokens == c.tokens
    ensures |TokensOf(r)| > |c.tokens| ==> TokensOf(r)[|c.tokens|] in {Token(Kword, "{"), Token(Kword, "}")}
  {
    match SkipFrom(t, c.i, Blank)
    case None => Exhausted(c.tokens, c.ids)
    case Some(j) => HDispatch(t, c.(i := j))
  }

  /** The dispatch of h_state_processing on the first symbol that is not blank. */
  function HDispatch(t: string, c: Cfg): (r: StepOut)
    requires c.i < |t|
    ensures AtMostOneToken(c, r) && IdsOf(r) == c.ids
    ensures r.Moved? ==> Entered(t, r.c) && c.i <= r.c.i && r.c.errSymbol == c.errSymbol
    ensures r.Moved? && r.c.state == H ==> c.i < r.c.i
    ensures r.Moved? && r.c.state == Err ==> r.c.tokens == c.tokens
    ensures |TokensOf(r)| > |c.tokens| ==> TokensOf(r)[|c.tokens|] in {Token(Kword, "{"), Token(Kword, "}")}
  {
    var s := t[c.i];
    if IsAlpha(s) then Moved(c.(state := Id))
    else if IsNumStart(s) then Moved(c.(state := Nm))
    else if IsDlmTrigger(s) then Moved(c.(state := Dlm))
    else if s == '{' || s == '}' then EmitThenAdvance(t, c, Token(Kword, [s]))
    else if s == '#' then
      match AdvanceUnlessEof(t, c.i)
      case None => Exhausted(c.tokens, c.ids)
      case Some(k) => Moved(c.(i := k, state := Comm))
    else Moved(c.(state := Err))
  }

  /** comm_state_processing */
  function CommStep(t: string, c: Cfg): (r: StepOut)
    requires c.i < |t|
    ensures TokensOf(r) == c.tokens && IdsOf(r) == c.ids
    ensures r.Moved? ==> c.i <= r.c.i < |t|
    ensures r.Moved? ==> (r.c.state == H && c.i < r.c.i) || (r.c.state == Err && t[r.c.i] == Sentinel)
    ensures r.Moved? && r.c.state == H ==> t[r.c.i - 1] == '#'
  {
    match SkipFrom(t, c.i, NotHash)
    case None => Exhausted(c.tokens, c.ids)
    case Some(j) =>
      if t[j] == '#' then
        match AdvanceUnlessEof(t, j)
        case None => Exhausted(c.tokens, c.ids)
        case Some(k) => Moved(c.(i := k, state := H))
      else Moved(c.(i := j, state := Err, errSymbol := [t[j]]))
  }

  /**
   * The classification at the end of id_state_processing: one token whose
   * lexeme is the word, TYPE exactly for a type name; the word joins the
   * identifier table exactly when it is neither a keyword nor a type name.
   */
  function ClassifyWord(c: Cfg, buf: string): (r: Cfg)
    ensures r.tokens == c.tokens + [Token(if buf in Types then TypeName else Kword, buf)]
    ensures r.ids == if buf in Keywords || buf in Types then c.ids else c.ids + {buf}
    ensures r.(tokens := c.tokens, ids := c.ids) == c
  {
    if buf in Keywords then c.(tokens := c.tokens + [Token(Kword, buf)])
    else if buf in Types then c.(tokens := c.tokens + [Token(TypeName, buf)])
    else
      c.(tokens := c.tokens + [Token(Kword, buf)],
         ids := if buf !in Keywords then c.ids + {buf} else c.ids)
  }

  /** id_state_processing */
  function IdStep(t: string, c: Cfg): (r: StepOut)
    requires c.i < |t|
    ensures AtMostOneToken(c, r)
    ensures r.Moved? ==> r.c.state == H && |r.c.tokens| == |c.tokens| + 1
    ensures r.Moved? && t[c.i] != Sentinel ==> c.i < r.c.i
  {
    match BufferFrom(t, c.i, IdChar)
    case None => Exhausted(c.tokens, c.ids)
    case Some((buf, k)) => Moved(ClassifyWord(c.(i := k, state := H), buf))
  }

  /** The end of nm_state_processing: a number token and back to H, or the buffer becomes the error symbol. */
  function ClassifyNumber(c: Cfg, buf: string): (r: Cfg)
    ensures r.i == c.i && r.ids == c.ids && (r.state == H || r.state == Err)
    ensures r.tokens == c.tokens || (IsNum(buf).Some? && r.tokens == c.tokens + [Token(IsNum(buf).value, buf)])
    ensures IsNum(buf).Some? <==> r.state == H
    ensures r.state == H ==> r.tokens == c.tokens + [Token(IsNum(buf).value, buf)] && r.errSymbol == c.errSymbol
    ensures r.state == Err ==> r.tokens == c.tokens && r.errSymbol == buf
  {
    match IsNum(buf)
    case Some(kind) => c.(state := H, tokens := c.tokens + [Token(kind, buf)])
    case None => c.(state := Err, errSymbol := buf)
  }

  /** nm_state_processing */
  function NmStep(t: string, c: Cfg): (r: StepOut)
    requires c.i < |t|
    ensures AtMostOneToken(c, r) && IdsOf(r) == c.ids
    ensures r.Moved? ==> r.c.state == H || r.c.state == Err
    ensures r.Moved? && t[c.i] != Sentinel ==> c.i < r.c.i
  {
    match BufferFrom(t, c.i, NumChar)
    case None => Exhausted(c.tokens, c.ids)
    case Some((buf, k)) => Moved(ClassifyNumber(c.(i := k), buf))
  }

  /** The operator branch of dlm_state_processing: one relational symbol, or a pair from the operator table. */
  function OperatorStep(t: string, c: Cfg): (r: StepOut)
    requires c.i < |t|
    ensures AtMostOneToken(c, r) && IdsOf(r) == c.ids
    ensures r.Moved? ==> r.c.state == H && |r.c.tokens| == |c.tokens| + 1 && r.c.tokens[|c.tokens|].name == Oper
    ensures r.Moved? && t[c.i] != Sentinel ==> c.i < r.c.i
  {
    var s := t[c.i];
    if s != Sentinel then
      match Advance(t, c.i)
      case None => Exhausted(c.tokens, c.ids)
      case Some(k) =>
        if IsRelationalPair(s, t[k]) then EmitThenAdvance(t, c.(i := k), Token(Oper, [s, t[k]]))
        else Moved(c.(i := k, state := H, tokens := c.tokens + [Token(Oper, [s])]))
    else Moved(c.(state := H, tokens := c.tokens + [Token(Oper, [s])]))
  }

  /** dlm_state_processing */
  function DlmStep(t: string, c: Cfg): (r: StepOut)
    requires c.i < |t|
    ensures AtMostOneToken(c, r) && IdsOf(r) == c.ids
    ensures r.Moved? ==> r.c.state == H && |r.c.tokens| == |c.tokens| + 1
    ensures r.Moved? && t[c.i] != Sentinel ==> c.i < r.c.i
  {
    var s := t[c.i];
    if IsSingleSymbolToken(s) then SingleSymbolStep(t, c)
    else OperatorStep(t, c)
  }

  /** The first branch of dlm_state_processing: the symbol alone is a token, DELIM for a delimiter and ARITH otherwise. */
  function SingleSymbolStep(t: string, c: Cfg): (r: StepOut)
    requires c.i < |t|
    ensures TokensOf(r) == c.tokens + [Token(if IsDelimiter(t[c.i]) then Delim else Arith, [t[c.i]])]
    ensures IdsOf(r) == c.ids
  {
    EmitThenAdvance(t, c, Token(SymbolKind(t[c.i]), [t[c.i]]))
  }

  /**
   * The kind of a one-symbol delimiter, type or arithmetic token, tested in
   * the order of dlm_state_processing.  No type name is one symbol long, so
   * the middle branch is never taken.
   */
  function SymbolKind(s: char): (k: TokenKind)
    ensures k == Delim <==> IsDelimiter(s)
    ensures k != TypeName
  {
    if IsDelimiter(s) then Delim else if [s] in Types then TypeName else Arith
  }

  /** One round of the dispatch loop in a state other than ERR. */
  function Step(t: string, c: Cfg): (r: StepOut)
    requires Entered(t, c) && c.state != Err && t[c.i] != Sentinel
    ensures AtMostOneToken(c, r)
    ensures r.Moved? ==> Entered(t, r.c) && c.i <= r.c.i
    ensures r.Moved? ==> c.i < r.c.i || Rank(r.c.state) < Rank(c.state)
  {
    match c.state
    case H => HStep(t, c)
    case Comm => CommStep(t, c)
    case Id => IdStep(t, c)
    case Nm => NmStep(t, c)
    case Dlm => DlmStep(t, c)
  }

  /** No round moves the cursor past a sentinel, and none runs out of symbols while a sentinel is ahead. */
  lemma StepStopsBySentinel(t: string, c: Cfg)
    requires Entered(t, c) && c.state != Err && t[c.i] != Sentinel
    ensures StopsBySentinel(t, c, Step(t, c))
  {
    match c.state
    case H => HStopsBySentinel(t, c);
    case Comm => CommStopsBySentinel(t, c);
    case Id => BufferStopsBySentinel(t, c, IdChar);
    case Nm => BufferStopsBySentinel(t, c, NumChar);
    case Dlm => DlmStopsBySentinel(t, c);
  }

  lemma HStopsBySentinel(t: string, c: Cfg)
    requires c.i < |t|
    ensures StopsBySentinel(t, c, HStep(t, c))
  {
    SkipFromStops(t, c.i, Blank);
  }

  lemma CommStopsBySentinel(t: string, c: Cfg)
    requires c.i < |t|
    ensures StopsBySentinel(t, c, CommStep(t, c))
  {
    SkipFromStops(t, c.i, NotHash);
  }

  lemma BufferStopsBySentinel(t: string, c: Cfg, cls: CharClass)
    requires c.i < |t| && (cls == IdChar || cls == NumChar)
    ensures cls == IdChar ==> StopsBySentinel(t, c, IdStep(t, c))
    ensures cls == NumChar ==> StopsBySentinel(t, c, NmStep(t, c))
  {
    BufferFromStops(t, c.i, cls);
  }

  lemma DlmStopsBySentinel(t: string, c: Cfg)
    requires c.i < |t| && t[c.i] != Sentinel
    ensures StopsBySentinel(t, c, DlmStep(t, c))
  {
  }

  /**
   * analysis: the dispatch loop.  It stops as soon as the current symbol is
   * the sentinel, whatever the state; otherwise ERR raises with the current
   * position, and every other state runs its procedure.
   */
  function Run(t: string, c: Cfg): (f: Final)
    requires Entered(t, c)
    ensures c.tokens <= f.tokens && c.ids <= f.ids
    decreases |t| - c.i, Rank(c.state)
  {
    if t[c.i] == Sentinel then Final(c.tokens, c.ids, AtSentinel)
    else if c.state == Err then Final(c.tokens, c.ids, Raised(c.errSymbol, LineAt(t, c.i), ColAt(t, c.i)))
    else
      match Step(t, c)
      case Exhausted(tokens, ids) => Final(tokens, ids, StreamExhausted)
      case Moved(c') => Run(t, c')
  }

  /** A round that moves on leaves the rest of the run to the configuration it moves to. */
  lemma RunSteps(t: string, c: Cfg)
    requires Entered(t, c) && c.state != Err && t[c.i] != Sentinel
    ensures Step(t, c).Moved? ==> Entered(t, Step(t, c).c) && Run(t, c) == Run(t, Step(t, c).c)
    ensures Step(t, c).Exhausted? ==> Run(t, c) == Final(Step(t, c).tokens, Step(t, c).ids, StreamExhausted)
  {
  }

  /** Appending at most one emittable token, then growing, is growing. */
  lemma GrowsByStep(c: Cfg, r: StepOut, f: Final)
    requires AtMostOneToken(c, r)
    requires r.Exhausted? ==> f.tokens == r.tokens && f.ids == r.ids
    requires r.Moved? ==> Grows(r.c.tokens, r.c.ids, f.tokens, f.ids)
    ensures Grows(c.tokens, c.ids, f.tokens, f.ids)
  {
  }

  /** How a run ends on the sentinel, and in ERR. */
  lemma RunEnds(t: string, c: Cfg)
    requires Entered(t, c)
    ensures t[c.i] == Sentinel ==> Run(t, c) == Final(c.tokens, c.ids, AtSentinel)
    ensures t[c.i] != Sentinel && c.state == Err ==>
      Run(t, c) == Final(c.tokens, c.ids, Raised(c.errSymbol, LineAt(t, c.i), ColAt(t, c.i)))
  {
  }

  /** The tokens a run appends are all emittable. */
  lemma {:induction false} RunGrows(t: string, c: Cfg)
    requires Entered(t, c)
    ensures Grows(c.tokens, c.ids, Run(t, c).tokens, Run(t, c).ids)
    decreases |t| - c.i, Rank(c.state)
  {
    RunEnds(t, c);
    if t[c.i] != Sentinel && c.state != Err {
      var r := Step(t, c);
      RunSteps(t, c);
      if r.Moved? {
        RunGrows(t, r.c);
      }
      GrowsByStep(c, r, Run(t, c));
    }
  }

  /**
   * A run ends at the sentinel only if there is one, and never exhausts the
   * stream while a sentinel is ahead of the cursor.
   */
  lemma {:induction false} RunStopsAtSentinel(t: string, c: Cfg)
    requires Entered(t, c)
    ensures Run(t, c).halt == AtSentinel ==> exists k :: c.i <= k < |t| && t[k] == Sentinel
    ensures forall k :: c.i <= k < |t| && t[k] == Sentinel ==> Run(t, c).halt != StreamExhausted
    decreases |t| - c.i, Rank(c.state)
  {
    RunEnds(t, c);
    if t[c.i] != Sentinel && c.state != Err {
      var r := Step(t, c);
      RunSteps(t, c);
      StepStopsBySentinel(t, c);
      if r.Moved? {
        RunStopsAtSentinel(t, r.c);
      }
    }
  }

  /** The configuration after the first next(): on the first symbol, in H, with nothing emitted. */
  function Initial(ids: set<string>): Cfg {
    Cfg(0, H, [], ids, "")
  }

  /** The whole analysis of a file content, with the identifier table it starts from. */
  function Lex(content: string, ids: set<string>): (f: Final)
    ensures ids <= f.ids
    ensures forall k :: 0 <= k < |f.tokens| ==> Emittable(f.tokens[k])
    ensures Sentinel in content ==> f.halt != StreamExhausted
    ensures Sentinel !in content ==> f.halt != AtSentinel
  {
    PreparedSentinel(content);
    RunGrows(Prepare(content), Initial(ids));
    RunStopsAtSentinel(Prepare(content), Initial(ids));
    Run(Prepare(content), Initial(ids))
  }

  /** The prepared text holds a sentinel exactly where the content does. */
  lemma PreparedSentinel(content: string)
    ensures Sentinel in content <==> Sentinel in Prepare(content)
    ensures Sentinel in content ==> exists k :: 0 <= k < |Prepare(content)| && Prepare(content)[k] == Sentinel
  {
    var t := Prepare(content);
    if Sentinel in content {
      var k :| 0 <= k < |content| && content[k] == Sentinel;
      assert t[k] == Sentinel;
    }
    if Sentinel in t {
      var k :| 0 <= k < |t| && t[k] == Sentinel;
      assert k < |content| && content[k] == Sentinel;
    }
  }
}

=== FILE: source_order.dfy ===
/**
 * The tokens spell the text.  Reading the prepared text from the start, the
 * machine passes over gaps (blanks and closed `#...#` comments) and over
 * the lexemes of the tokens it emits, one after the other: every lexeme is
 * the segment of the text at its own position, the positions increase, no
 * two lexemes overlap, and only a gap lies between two of them.
 */
module SourceOrder {
  import opened Tokens
  import opened NumberFormats
  import opened Stream
  import opened Scanner
  import opened ScannerProperties

  /**
   * The symbols from a to b are a gap: blanks and closed comments, a comment
   * being '#', a body holding neither '#' nor '@', and '#'.  The gap is read
   * from its right end.
   */
  predicate Gap(t: string, a: nat, b: nat)
    decreases b
  {
    a <= b <= |t| &&
    (a == b ||
     (IsBlank(t[b - 1]) && Gap(t, a, b - 1)) ||
     (t[b - 1] == '#' && OpenComment(t, a, b - 1)))
  }

  /** The symbols from a to b are a gap, an opening '#', and a comment body holding neither '#' nor '@'. */
  predicate OpenComment(t: string, a: nat, b: nat)
    decreases b
  {
    a < b <= |t| &&
    if t[b - 1] == '#' then Gap(t, a, b - 1) else t[b - 1] != Sentinel && OpenComment(t, a, b - 1)
  }

  /** The lexeme of tok stands in t from position a on. */
  predicate LexemeAt(t: string, a: nat, tok: Token) {
    a + |tok.value| <= |t| && t[a..a + |tok.value|] == tok.value
  }

  /** Where the last lexeme ends (lo when there is none). */
  function SpellEnd(lo: nat, toks: seq<Token>, starts: seq<nat>): nat
    requires |starts| == |toks|
  {
    if toks == [] then lo else starts[|toks| - 1] + |toks[|toks| - 1].value|
  }

  /**
   * From lo to the end of the last lexeme, t is a gap, the lexeme of
   * toks[0] at starts[0], a gap, the lexeme of toks[1] at starts[1], and so on.
   */
  predicate Spells(t: string, lo: nat, toks: seq<Token>, starts: seq<nat>)
    decreases |toks|
  {
    |starts| == |toks| &&
    if toks == [] then lo <= |t|
    else
      var n := |toks| - 1;
      Spells(t, lo, toks[..n], starts[..n]) &&
      Gap(t, SpellEnd(lo, toks[..n], starts[..n]), starts[n]) &&
      LexemeAt(t, starts[n], toks[n])
  }

  /**
   * What lies between the end a of the last lexeme and the cursor in ERR,
   * told apart by the pending error symbol: a gap before an unexpected
   * symbol (no symbol), an open comment that met '@' (the symbol "@"), or a
   * gap and then the rejected number buffer, which ends at the cursor.
   */
  predicate ErrTail(t: string, a: nat, c: Cfg) {
    (c.errSymbol == "" && Gap(t, a, c.i)) ||
    (c.errSymbol == [Sentinel] && OpenComment(t, a, c.i)) ||
    (MalformedBuffer(c.errSymbol) && a + |c.errSymbol| <= c.i <= |t| &&
     Gap(t, a, c.i - |c.errSymbol|) && t[c.i - |c.errSymbol|..c.i] == c.errSymbol)
  }

  /**
   * Where a configuration stands in that reading: the tokens so far spell
   * the text, and what follows the last lexeme up to the cursor is a gap,
   * in COMM a gap and an open comment, and in ERR what ErrTail says.
   * Outside ERR no error symbol is pending.
   */
  predicate Scanned(t: string, c: Cfg, lo: nat, starts: seq<nat>) {
    Spells(t, lo, c.tokens, starts) &&
    (c.state != Err ==> c.errSymbol == "") &&
    match c.state
    case Comm => OpenComment(t, SpellEnd(lo, c.tokens, starts), c.i)
    case Err => ErrTail(t, SpellEnd(lo, c.tokens, starts), c)
    case _ => Gap(t, SpellEnd(lo, c.tokens, starts), c.i)
  }

  /** What a round leaves: a configuration that is still Scanned, or tokens that spell the text. */
  predicate SpelledOut(t: string, r: StepOut, lo: nat, starts: seq<nat>) {
    match r
    case Moved(c) => Scanned(t, c, lo, starts)
    case Exhausted(tokens, _) => Spells(t, lo, tokens, starts)
  }

  // ---------------------------------------------------------------------
  // Growing a gap, a comment and a spelling

  lemma {:induction false} GapOverBlanks(t: string, a: nat, b: nat, j: nat)
    requires Gap(t, a, b) && b <= j <= |t|
    requires forall m :: b <= m < j ==> IsBlank(t[m])
    ensures Gap(t, a, j)
    decreases j - b
  {
    if b < j {
      GapOverBlanks(t, a, b, j - 1);
    }
  }

  lemma {:induction false} CommentOverBody(t: string, a: nat, b: nat, j: nat)
    requires OpenComment(t, a, b) && b <= j <= |t|
    requires forall m :: b <= m < j ==> t[m] != '#' && t[m] != Sentinel
    ensures OpenComment(t, a, j)
    decreases j - b
  {
    if b < j {
      CommentOverBody(t, a, b, j - 1);
    }
  }

  lemma SpellsAppend(t: string, lo: nat, toks: seq<Token>, starts: seq<nat>, a: nat, tok: Token)
    requires Spells(t, lo, toks, starts) && Gap(t, SpellEnd(lo, toks, starts), a) && LexemeAt(t, a, tok)
    ensures Spells(t, lo, toks + [tok], starts + [a])
    ensures SpellEnd(lo, toks + [tok], starts + [a]) == a + |tok.value|
  {
    assert (toks + [tok])[..|toks|] == toks;
    assert (starts + [a])[..|starts|] == starts;
  }

  /** A one-symbol token emitted on symbol i, then the advance: the spelling grows by it. */
  lemma EmitSpells(t: string, c: Cfg, lo: nat, starts: seq<nat>, tok: Token)
    requires c.i < |t| && t[c.i] != Sentinel && tok.value == [t[c.i]] && c.errSymbol == ""
    requires Spells(t, lo, c.tokens, starts) && Gap(t, SpellEnd(lo, c.tokens, starts), c.i)
    ensures SpelledOut(t, EmitThenAdvance(t, c, tok), lo, starts + [c.i])
  {
    assert t[c.i..c.i + 1] == [t[c.i]];
    SpellsAppend(t, lo, c.tokens, starts, c.i, tok);
  }

  // ---------------------------------------------------------------------
  // One round per state

  lemma DispatchSpells(t: string, c: Cfg, lo: nat, starts: seq<nat>) returns (starts': seq<nat>)
    requires c.i < |t| && t[c.i] != Sentinel && c.errSymbol == ""
    requires Spells(t, lo, c.tokens, starts) && Gap(t, SpellEnd(lo, c.tokens, starts), c.i)
    ensures SpelledOut(t, HDispatch(t, c), lo, starts')
  {
    starts' := starts;
    var s := t[c.i];
    if !IsAlpha(s) && !IsNumStart(s) && !IsDlmTrigger(s) && (s == '{' || s == '}') {
      starts' := starts + [c.i];
      EmitSpells(t, c, lo, starts, Token(Kword, [s]));
    }
  }

  lemma HSpells(t: string, c: Cfg, lo: nat, starts: seq<nat>) returns (starts': seq<nat>)
    requires c.i < |t| && c.state == H && Scanned(t, c, lo, starts)
    ensures SpelledOut(t, HStep(t, c), lo, starts')
  {
    starts' := starts;
    SkipFromStops(t, c.i, Blank);
    if SkipFrom(t, c.i, Blank).Some? {
      var j := SkipFrom(t, c.i, Blank).value;
      GapOverBlanks(t, SpellEnd(lo, c.tokens, starts), c.i, j);
      if t[j] != Sentinel {
        starts' := DispatchSpells(t, c.(i := j), lo, starts);
      }
    }
  }

  lemma CommSpells(t: string, c: Cfg, lo: nat, starts: seq<nat>)
    requires c.i < |t| && c.state == Comm && Scanned(t, c, lo, starts)
    ensures SpelledOut(t, CommStep(t, c), lo, starts)
  {
    SkipFromStops(t, c.i, NotHash);
    if SkipFrom(t, c.i, NotHash).Some? {
      var j := SkipFrom(t, c.i, NotHash).value;
      CommentOverBody(t, SpellEnd(lo, c.tokens, starts), c.i, j);
      if t[j] != '#' {
        assert t[j] == Sentinel && CommStep(t, c) == Moved(c.(i := j, state := Err, errSymbol := [Sentinel]));
      }
    }
  }

  lemma IdSpells(t: string, c: Cfg, lo: nat, starts: seq<nat>) returns (starts': seq<nat>)
    requires c.i < |t| && t[c.i] != Sentinel && c.state == Id && Scanned(t, c, lo, starts)
    ensures SpelledOut(t, IdStep(t, c), lo, starts')
  {
    starts' := starts;
    BufferIsSegment(t, c.i, IdChar);
    if BufferFrom(t, c.i, IdChar).Some? {
      var (buf, k) := BufferFrom(t, c.i, IdChar).value;
      starts' := starts + [c.i];
      SpellsAppend(t, lo, c.tokens, starts, c.i, Token(if buf in Types then TypeName else Kword, buf));
    }
  }

  lemma NmSpells(t: string, c: Cfg, lo: nat, starts: seq<nat>) returns (starts': seq<nat>)
    requires c.i < |t| && t[c.i] != Sentinel && c.state == Nm && IsNumStart(t[c.i]) && Scanned(t, c, lo, starts)
    ensures SpelledOut(t, NmStep(t, c), lo, starts')
  {
    starts' := starts;
    BufferIsSegment(t, c.i, NumChar);
    if BufferFrom(t, c.i, NumChar).Some? {
      var (buf, k) := BufferFrom(t, c.i, NumChar).value;
      if IsNum(buf).Some? {
        starts' := starts + [c.i];
        SpellsAppend(t, lo, c.tokens, starts, c.i, Token(IsNum(buf).value, buf));
      } else {
        NmErrSymbol(t, c);
        assert NmStep(t, c) == Moved(c.(i := k, state := Err, errSymbol := buf));
        PendingBufferTail(t, SpellEnd(lo, c.tokens, starts), c.i, c.(i := k, state := Err, errSymbol := buf));
      }
    }
  }

  /** A rejected buffer that follows a gap ending at i is the pending tail of ERR. */
  lemma PendingBufferTail(t: string, a: nat, i: nat, e: Cfg)
    requires Gap(t, a, i) && i <= e.i <= |t| && e.errSymbol == t[i..e.i] && MalformedBuffer(e.errSymbol)
    ensures ErrTail(t, a, e)
  {
    assert e.i - |e.errSymbol| == i;
  }

  /** A two-symbol token emitted on the second of its symbols, then the advance: the spelling grows by it. */
  lemma EmitPairSpells(t: string, c: Cfg, lo: nat, starts: seq<nat>, tok: Token)
    requires c.i + 1 < |t| && t[c.i + 1] != Sentinel && tok.value == [t[c.i], t[c.i + 1]] && c.errSymbol == ""
    requires Spells(t, lo, c.tokens, starts) && Gap(t, SpellEnd(lo, c.tokens, starts), c.i)
    ensures SpelledOut(t, EmitThenAdvance(t, c.(i := c.i + 1), tok), lo, starts + [c.i])
  {
    assert t[c.i..c.i + 2] == tok.value;
    SpellsAppend(t, lo, c.tokens, starts, c.i, tok);
  }

  /** A relational pair is one token whose lexeme is the two symbols at the cursor. */
  lemma PairSpells(t: string, c: Cfg, lo: nat, starts: seq<nat>)
    requires c.i + 1 < |t| && t[c.i] != Sentinel && IsRelationalPair(t[c.i], t[c.i + 1]) && c.errSymbol == ""
    requires Spells(t, lo, c.tokens, starts) && Gap(t, SpellEnd(lo, c.tokens, starts), c.i)
    ensures SpelledOut(t, OperatorStep(t, c), lo, starts + [c.i])
  {
    var tok := Token(Oper, [t[c.i], t[c.i + 1]]);
    assert OperatorStep(t, c) == EmitThenAdvance(t, c.(i := c.i + 1), tok);
    EmitPairSpells(t, c, lo, starts, tok);
  }

  /** A relational symbol not followed by the second half of a pair is a token on its own. */
  lemma LoneOperatorSpells(t: string, c: Cfg, lo: nat, starts: seq<nat>)
    requires c.i + 1 < |t| && t[c.i] != Sentinel && !IsRelationalPair(t[c.i], t[c.i + 1]) && c.errSymbol == ""
    requires Spells(t, lo, c.tokens, starts) && Gap(t, SpellEnd(lo, c.tokens, starts), c.i)
    ensures SpelledOut(t, OperatorStep(t, c), lo, starts + [c.i])
  {
    var tok := Token(Oper, [t[c.i]]);
    assert OperatorStep(t, c) == EmitThenAdvance(t, c, tok);
    EmitSpells(t, c, lo, starts, tok);
  }

  lemma OperatorSpells(t: string, c: Cfg, lo: nat, starts: seq<nat>) returns (starts': seq<nat>)
    requires c.i < |t| && t[c.i] != Sentinel && c.errSymbol == ""
    requires Spells(t, lo, c.tokens, starts) && Gap(t, SpellEnd(lo, c.tokens, starts), c.i)
    ensures SpelledOut(t, OperatorStep(t, c), lo, starts')
  {
    if c.i + 1 == |t| {
      starts' := starts;
      assert OperatorStep(t, c) == Exhausted(c.tokens, c.ids);
    } else if IsRelationalPair(t[c.i], t[c.i + 1]) {
      starts' := starts + [c.i];
      PairSpells(t, c, lo, starts);
    } else {
      starts' := starts + [c.i];
      LoneOperatorSpells(t, c, lo, starts);
    }
  }

  lemma DlmSpells(t: string, c: Cfg, lo: nat, starts: seq<nat>) returns (starts': seq<nat>)
    requires c.i < |t| && t[c.i] != Sentinel && c.state == Dlm && Scanned(t, c, lo, starts)
    ensures SpelledOut(t, DlmStep(t, c), lo, starts')
  {
    if IsSingleSymbolToken(t[c.i]) {
      starts' := starts + [c.i];
      EmitSpells(t, c, lo, starts, Token(SymbolKind(t[c.i]), [t[c.i]]));
    } else {
      starts' := OperatorSpells(t, c, lo, starts);
    }
  }

  /** Every round keeps the configuration Scanned, or ends with tokens that spell the text. */
  lemma StepSpells(t: string, c: Cfg, lo: nat, starts: seq<nat>) returns (starts': seq<nat>)
    requires Entered(t, c) && c.state != Err && t[c.i] != Sentinel && Scanned(t, c, lo, starts)
    ensures SpelledOut(t, Step(t, c), lo, starts')
  {
    match c.state
    case H => starts' := HSpells(t, c, lo, starts);
    case Comm => starts' := starts; CommSpells(t, c, lo, starts);
    case Id => starts' := IdSpells(t, c, lo, starts);
    case Nm => starts' := NmSpells(t, c, lo, starts);
    case Dlm => starts' := DlmSpells(t, c, lo, starts);
  }

  // ---------------------------------------------------------------------
  // Whole runs

  /** The tokens a run ends with spell the text from lo. */
  lemma {:induction false} RunSpells(t: string, c: Cfg, lo: nat, starts: seq<nat>)
    requires Entered(t, c) && Scanned(t, c, lo, starts)
    ensures exists starts' :: Spells(t, lo, Run(t, c).tokens, starts')
    decreases |t| - c.i, Rank(c.state)
  {
    RunEnds(t, c);
    if t[c.i] == Sentinel || c.state == Err {
      assert Spells(t, lo, Run(t, c).tokens, starts);
    } else {
      var starts' := StepSpells(t, c, lo, starts);
      RunSteps(t, c);
      if Step(t, c).Moved? {
        RunSpells(t, Step(t, c).c, lo, starts');
      } else {
        assert Spells(t, lo, Run(t, c).tokens, starts');
      }
    }
  }

  /**
   * A spelling places each lexeme at its own position in the text, in
   * increasing order and without overlap, all from lo on.
   */
  lemma {:induction false} SpellsInOrder(t: string, lo: nat, toks: seq<Token>, starts: seq<nat>)
    requires Spells(t, lo, toks, starts)
    ensures forall j :: 0 <= j < |toks| ==> lo <= starts[j] && LexemeAt(t, starts[j], toks[j])
    ensures forall j :: 0 < j < |toks| ==> starts[j - 1] + |toks[j - 1].value| <= starts[j]
    ensures lo <= SpellEnd(lo, toks, starts) <= |t|
    decreases |toks|
  {
    if toks != [] {
      var n := |toks| - 1;
      SpellsInOrder(t, lo, toks[..n], starts[..n]);
      assert forall j :: 0 <= j < n ==> toks[..n][j] == toks[j] && starts[..n][j] == starts[j];
    }
  }

  /** The configuration before the first round: on the first symbol, in H, nothing emitted, nothing spelled yet. */
  lemma StartConfiguration(content: string, ids: set<string>)
    ensures Entered(Prepare(content), Initial(ids))
    ensures ErrSymbolKept(Prepare(content), Initial(ids))
    ensures Initial(ids).tokens == [] && Initial(ids).ids == ids && Initial(ids).state == H
    ensures Scanned(Prepare(content), Initial(ids), 0, [])
  {
  }

  /**
   * The analysis of any content emits the lexemes of the text in source
   * order: each token's lexeme is the segment of the prepared text at its
   * own position, the positions strictly increase, no two lexemes overlap,
   * and only blanks and closed comments lie before and between them.
   */
  lemma LexSpellsText(content: string, ids: set<string>)
    ensures var t, f := Prepare(content), Lex(content, ids);
      exists starts ::
        Spells(t, 0, f.tokens, starts) &&
        (forall j :: 0 <= j < |f.tokens| ==> LexemeAt(t, starts[j], f.tokens[j])) &&
        (forall j :: 0 <= j < |f.tokens| - 1 ==> starts[j] < starts[j] + |f.tokens[j].value| <= starts[j + 1])
  {
    var t, f := Prepare(content), Lex(content, ids);
    StartConfiguration(content, ids);
    RunSpells(t, Initial(ids), 0, []);
    var starts :| Spells(t, 0, f.tokens, starts);
    SpellsInOrder(t, 0, f.tokens, starts);
  }

  // ---------------------------------------------------------------------
  // The text after the last lexeme

  /**
   * The configuration a run stops in: on '@' or in ERR.  None when the
   * stream runs out first.  No round before it passes a '@'.
   */
  ghost function HaltCfg(t: string, c: Cfg): (h: Option<Cfg>)
    requires Entered(t, c)
    ensures h.Some? ==> Entered(t, h.value) && c.i <= h.value.i && Run(t, c) == Run(t, h.value)
    ensures h.Some? ==> t[h.value.i] == Sentinel || h.value.state == Err
    ensures h.Some? ==> forall m :: c.i <= m < h.value.i ==> t[m] != Sentinel
    ensures h.None? <==> Run(t, c).halt == StreamExhausted
    decreases |t| - c.i, Rank(c.state)
  {
    RunEnds(t, c);
    if t[c.i] == Sentinel || c.state == Err then Some(c)
    else
      RunSteps(t, c);
      StepStopsBySentinel(t, c);
      match Step(t, c)
      case Exhausted(_, _) => None
      case Moved(c') => HaltCfg(t, c')
  }

  /** The configuration a run stops in is Scanned. */
  lemma {:induction false} RunAccounts(t: string, c: Cfg, lo: nat, starts: seq<nat>)
    requires Entered(t, c) && Scanned(t, c, lo, starts)
    ensures HaltCfg(t, c).Some? ==> exists starts' :: Scanned(t, HaltCfg(t, c).value, lo, starts')
    decreases |t| - c.i, Rank(c.state)
  {
    if t[c.i] != Sentinel && c.state != Err {
      var starts' := StepSpells(t, c, lo, starts);
      if Step(t, c).Moved? {
        RunAccounts(t, Step(t, c).c, lo, starts');
      }
    }
  }

  /**
   * What may lie between the end e of the last lexeme and the position k
   * where an analysis stops: a gap, a gap and an open comment, or a gap and
   * a malformed number buffer.
   */
  ghost predicate Tail(t: string, e: nat, k: nat) {
    Gap(t, e, k) || OpenComment(t, e, k) ||
    (k <= |t| && exists m :: e <= m <= k && Gap(t, e, m) && MalformedBuffer(t[m..k]))
  }

  /** A Scanned configuration a run stops in leaves a Tail up to its cursor. */
  lemma ScannedTail(t: string, h: Cfg, lo: nat, starts: seq<nat>)
    requires Entered(t, h) && (t[h.i] == Sentinel || h.state == Err) && Scanned(t, h, lo, starts)
    ensures Tail(t, SpellEnd(lo, h.tokens, starts), h.i)
  {
    var e := SpellEnd(lo, h.tokens, starts);
    if h.state == Err && MalformedBuffer(h.errSymbol) && h.errSymbol != [Sentinel] {
      var m := h.i - |h.errSymbol|;
      assert e <= m <= h.i && Gap(t, e, m) && t[m..h.i] == h.errSymbol;
    }
  }

  /**
   * A run that stops on '@' or raises, at position k, leaves tokens that
   * spell the text up to the last lexeme and only a Tail from there to k:
   * k is the first '@' from the cursor on when it stops there, and the
   * position it reports when it raises.
   */
  ghost predicate AccountedTo(t: string, f: Final, lo: nat, from: nat, starts: seq<nat>, k: nat)
  {
    from <= k < |t| && Spells(t, lo, f.tokens, starts) && Tail(t, SpellEnd(lo, f.tokens, starts), k) &&
    (f.halt == AtSentinel ==> t[k] == Sentinel && forall m :: from <= m < k ==> t[m] != Sentinel) &&
    (f.halt.Raised? ==> t[k] != Sentinel && f.halt.line == LineAt(t, k) && f.halt.pos == ColAt(t, k))
  }

  lemma RunAccountsForText(t: string, c: Cfg, lo: nat, starts: seq<nat>) returns (starts': seq<nat>, k: nat)
    requires Entered(t, c) && Scanned(t, c, lo, starts)
    requires Run(t, c).halt != StreamExhausted
    ensures AccountedTo(t, Run(t, c), lo, c.i, starts', k)
  {
    var h := HaltCfg(t, c).value;
    RunAccounts(t, c, lo, starts);
    starts' :| Scanned(t, h, lo, starts');
    k := h.i;
    ScannedTail(t, h, lo, starts');
    RunEnds(t, h);
  }

  /**
   * Every symbol of the text up to where the analysis stops is accounted
   * for: when it stops on '@' or raises, the tokens spell the text and only
   * a Tail follows the last lexeme, up to the first '@' or to the position
   * the error reports.
   */
  lemma LexAccountsForText(content: string, ids: set<string>)
    ensures var t, f := Prepare(content), Lex(content, ids);
      f.halt != StreamExhausted ==> exists starts, k :: AccountedTo(t, f, 0, 0, starts, k)
  {
    var t, f := Prepare(content), Lex(content, ids);
    StartConfiguration(content, ids);
    if f.halt != StreamExhausted {
      var starts, k := RunAccountsForText(t, Initial(ids), 0, []);
      assert AccountedTo(t, f, 0, 0, starts, k);
    }
  }
}

=== FILE: stream.dfy ===
/**
 * fgetc_generator: the character stream.  It reads the whole content, appends
 * one line terminator, and then yields, one symbol at a time, the symbol,
 * whether it is the sentinel '@', and the line and column counters.  After a
 * line terminator the column counter restarts at 0, so only the first line
 * has 1-based columns.
 */
module Stream {
  import opened Tokens

  /** One yielded tuple: (symbol, end flag, line, column). */
  datatype Item = Item(symbol: char, eof: bool, line: int, pos: int)

  /** The symbols the stream yields for a file content: the content and exactly one line terminator after it. */
  function Prepare(content: string): (t: string)
    ensures |t| == |content| + 1 && t[..|content|] == content && t[|content|] == '\n'
  {
    content + ['\n']
  }

  /** The line counter after the first n symbols of t have been yielded. */
  function LineAt(t: string, n: nat): (line: int)
    requires n <= |t|
    ensures 1 <= line <= n + 1
  {
    if n == 0 then 1 else LineAt(t, n - 1) + (if t[n - 1] == '\n' then 1 else 0)
  }

  /**
   * The column counter after the first n symbols of t have been yielded: a
   * line terminator sets it to 0, any other symbol adds one.
   */
  function ColAt(t: string, n: nat): (col: int)
    requires n <= |t|
    ensures 0 <= col <= n + 1
    ensures col == 0 <==> n > 0 && t[n - 1] == '\n'
  {
    if n == 0 then 1 else if t[n - 1] == '\n' then 0 else ColAt(t, n - 1) + 1
  }

  /** The tuple yielded for symbol n of t: the end flag is raised exactly on '@'. */
  function ItemAt(t: string, n: nat): (item: Item)
    requires n < |t|
    ensures item.symbol == t[n] && (item.eof <==> item.symbol == Sentinel)
    ensures item.line == 1 + multiset(t[..n])['\n']
  {
    LineCountsTerminators(t, n);
    Item(t[n], t[n] == Sentinel, LineAt(t, n), ColAt(t, n))
  }

  /** The line of symbol n is one more than the number of line terminators before it. */
  lemma {:induction false} LineCountsTerminators(t: string, n: nat)
    requires n <= |t|
    ensures LineAt(t, n) == 1 + multiset(t[..n])['\n']
  {
    if n > 0 {
      LineCountsTerminators(t, n - 1);
      assert t[..n] == t[..n - 1] + [t[n - 1]];
    }
  }

  /** On the first line the column of symbol n is n + 1. */
  lemma {:induction false} ColumnOnFirstLine(t: string, n: nat)
    requires n <= |t| && forall k :: 0 <= k < n ==> t[k] != '\n'
    ensures ColAt(t, n) == n + 1
  {
    if n > 0 {
      ColumnOnFirstLine(t, n - 1);
    }
  }

  /** After a line terminator at k, the column of symbol n is the number of symbols between the two. */
  lemma {:induction false} ColumnSinceTerminator(t: string, n: nat, k: nat)
    requires k < n <= |t| && t[k] == '\n' && forall m :: k < m < n ==> t[m] != '\n'
    ensures ColAt(t, n) == n - k - 1
  {
    if n - 1 > k {
      ColumnSinceTerminator(t, n - 1, k);
    }
  }

  /** Counters depend only on the symbols already yielded. */
  lemma {:induction false} PositionsArePrefixLocal(t1: string, t2: string, n: nat)
    requires n <= |t1| && n <= |t2| && t1[..n] == t2[..n]
    ensures LineAt(t1, n) == LineAt(t2, n) && ColAt(t1, n) == ColAt(t2, n)
  {
    if n > 0 {
      assert t1[..n - 1] == t1[..n][..n - 1] && t2[..n - 1] == t2[..n][..n - 1];
      assert t1[n - 1] == t1[..n][n - 1] && t2[n - 1] == t2[..n][n - 1];
      PositionsArePrefixLocal(t1, t2, n - 1);
    }
  }

  /**
   * The generator's state: the prepared symbols, the index of the next
   * symbol to yield, and the two counters.
   */
  class CharStream {
    const text: string
    var next: nat
    var counterLine: int
    var counterPos: int

    ghost predicate Valid()
      reads this
    {
      next <= |text| && counterLine == LineAt(text, next) && counterPos == ColAt(text, next)
    }

    /** Opening the stream: the content gets exactly one '\n' appended; counters start at (1, 1). */
    constructor (content: string)
      ensures Valid() && next == 0
      ensures text == Prepare(content)
      ensures |text| == |content| + 1 && text[..|content|] == content && text[|content|] == '\n'
      ensures counterLine == 1 && counterPos == 1
    {
      text := content + ['\n'];
      next := 0;
      counterLine, counterPos := 1, 1;
    }

    /**
     * next(): yields the next tuple and advances the counters, or None once
     * every symbol has been yielded (StopIteration).
     */
    method Next() returns (r: Option<Item>)
      requires Valid()
      modifies this
      ensures Valid()
      ensures old(next) == |text| ==> r == None && next == old(next)
      ensures old(next) < |text| ==> r == Some(ItemAt(text, old(next))) && next == old(next) + 1
      ensures r.Some? ==> (r.value.eof <==> r.value.symbol == Sentinel)
    {
      if next == |text| {
        return None;
      }
      var c := text[next];
      r := Some(Item(c, c == Sentinel, counterLine, counterPos));
      if c == '\n' {
        counterPos := 0;
        counterLine := counterLine + 1;
      } else {
        counterPos := counterPos + 1;
      }
      next := next + 1;
    }
  }
}

=== FILE: tokens.dfy ===
/**
 * Vocabulary of the lexer: token kinds, scanner states, the fixed lexeme
 * tables and the character classes the scanner tests symbols against.
 * Letters and digits are restricted to ASCII.
 */
module Tokens {

  datatype Option<T> = None | Some(value: T)

  /** The twelve token names; Ident and Num are declared but never emitted. */
  datatype TokenKind =
    | Kword | Ident | Num | Oper | Delim | Num2 | Num8 | Num10 | Num16 | Real | TypeName | Arith

  /** An emitted token: its kind and the exact lexeme. */
  datatype Token = Token(name: TokenKind, value: string)

  /** The six states of the scanning machine. */
  datatype State = H | Comm | Id | Err | Nm | Dlm

  /** Keys of the keyword dictionary (its numeric values are never read). */
  const Keywords: set<string> :=
    {"or", "and", "not", "{", "}", "as", "if", "then", "else", "for", "to", "do",
     "while", "read", "write", "true", "false"}

  const Types: set<string> := {"integer", "boolean", "real"}

  const ArithOps: set<string> := {"+", "-", "*", "/"}

  const Operators: set<string> := {"<>", "=", "<", "<=", ">", ">="}

  const Delimiters: set<string> := {";", ",", ":", "[", "]", "(", ")"}

  /** The union tested by the start state before entering the delimiter state. */
  const DlmTriggers: set<string> := Delimiters + Operators + Types + ArithOps

  /**
   * The start state tests the one-symbol string against DlmTriggers; the
   * symbols for which that test succeeds (the type names, being longer than
   * one symbol, never contribute).
   */
  predicate IsDlmTrigger(c: char) {
    IsSingleSymbolToken(c) || c == '<' || c == '>' || c == '='
  }

  /** The symbols whose one-symbol string is a delimiter, an arithmetic operator or a type name. */
  predicate IsSingleSymbolToken(c: char) {
    IsDelimiter(c) || c == '+' || c == '-' || c == '*' || c == '/'
  }

  predicate IsDelimiter(c: char) {
    c == ';' || c == ',' || c == ':' || c == '[' || c == ']' || c == '(' || c == ')'
  }

  /** The two-symbol strings in the relational operator table. */
  predicate IsRelationalPair(a: char, b: char) {
    (a == '<' && (b == '>' || b == '=')) || (a == '>' && b == '=')
  }

  /** The single-symbol test equals the membership test on the string tables. */
  lemma DlmTriggerIsTableMembership(c: char)
    ensures IsDlmTrigger(c) <==> [c] in DlmTriggers
    ensures [c] !in Types
  {
  }

  /** The symbol tests the delimiter state uses equal the membership tests on the string tables. */
  lemma DlmTestsAreTableMembership(a: char, b: char)
    ensures IsSingleSymbolToken(a) <==> [a] in Delimiters + ArithOps + Types
    ensures IsDelimiter(a) <==> [a] in Delimiters
    ensures IsRelationalPair(a, b) <==> [a, b] in Operators
  {
  }

  /** Symbols that start a number buffer. */
  const NumStart: string := "0123456789."

  /** Symbols a number buffer extends over. */
  const NumAlphabet: string := "ABCDEFabcdefoOdDhH0123456789.eE+-"

  /** Symbols skipped by the start state. */
  const Blanks: string := " \n\t"

  /** The end-of-stream sentinel. */
  const Sentinel: char := '@'

  predicate IsAlpha(c: char) {
    'a' <= c <= 'z' || 'A' <= c <= 'Z'
  }

  predicate IsDigit(c: char) {
    '0' <= c <= '9'
  }

  predicate IsNumStart(c: char) {
    IsDigit(c) || c == '.'
  }

  predicate IsNumSymbol(c: char) {
    IsDigit(c) || 'A' <= c <= 'F' || 'a' <= c <= 'f' ||
    c == 'o' || c == 'O' || c == 'h' || c == 'H' || c == '.' || c == '+' || c == '-'
  }

  predicate IsBlank(c: char) {
    c == ' ' || c == '\n' || c == '\t'
  }

  /** The symbol tests equal membership in the symbol strings. */
  lemma SymbolTestsAreStringMembership(c: char)
    ensures IsNumStart(c) <==> c in NumStart
    ensures IsNumSymbol(c) <==> c in NumAlphabet
    ensures IsBlank(c) <==> c in Blanks
  {
  }

  /** The runs of symbols the scanner extends a buffer (or a skip) over. */
  datatype CharClass = Blank | NotHash | IdChar | NumChar

  predicate InClass(c: char, cls: CharClass) {
    match cls
    case Blank => IsBlank(c)
    case NotHash => c != '#'
    case IdChar => IsAlpha(c) || IsDigit(c)
    case NumChar => IsNumSymbol(c)
  }

  /**
   * is_keyword: membership in the keyword table.  Nothing in the lexer calls
   * it: id_state_processing tests the keyword table directly, as
   * Scanner.ClassifyWord does.
   */
  function IsKeyword(word: string): (r: bool)
    ensures r ==> |word| >= 1 && (IsAlpha(word[0]) || word == "{" || word == "}")
    ensures r ==> word !in Types
  {
    word in Keywords
  }
}
